=== FILE: README.md ===
# Key reconciliation core of the data comparison app

A Dafny model of the reconciliation core of `streamlit_app.py`, a Streamlit
tool that compares two tables (two spreadsheet uploads, or one upload and a
query result). The user picks a key column on each side, and optionally
extra columns and trim counts. The tool then:

- reduces every key to the digits of its text, or, for a float with an integral value, to the decimal form of that value, sign included (`normalize_value`, `normalize_column`);
- merges dataset 2 with dataset 1 on that `normalized_key`;
- lists the dataset-2 rows whose key dataset 1 lacks;
- deduplicates both results on the key (`get_unique_records`);
- reports counts and key-length statistics (`calculate_length_stats`).

The modules follow the structure of the program:

| module | file | models |
|---|---|---|
| `Seqs` | seqs.dfy | boolean masks, index selection and subsequences, shared by the others |
| `Cells` | cells.dfy | a dataframe cell: null, text, integer, or a float with an integral value; Python's `str()` of an integer and its inverse; the equality `drop_duplicates` uses (`1 == 1.0`) |
| `Tables` | tables.dfy | a table as column labels plus rows, and the error a missing column raises |
| `Normalizer` | normalizer.dfy | `normalize_value` and `normalize_column` |
| `Dedup` | dedup.dfy | `get_unique_records`: first-wins `drop_duplicates`, given both as a mask definition and as the one-pass hash-set algorithm, proved equal |
| `Join` | join.dfy | the inner merge on `normalized_key`, the non-matches padded with nulls, deduplication on the key |
| `LengthStats` | length_stats.dfy | `calculate_length_stats` |
| `Matcher` | matcher.dfy | the comparison run by the "Comparar Datos" button, lifted out of `main` into the pure function `Compare` |

Some conventions of the model:

- `Compare` returns `Err(NoKeyColumn)` where the app silently does nothing because a key column is not selected. An empty key-column name stands for "not selected".
- `Compare` returns `Err(ColumnNotFound(name))` where pandas raises `KeyError`.
- Two behaviours of the code worth knowing:
  - A float key is rendered as `str(int(value))` AFTER trimming and digit filtering. The trim counts therefore have no effect on a float cell, and a negative float keeps its `-` sign. `FloatIgnoresTrim` and `NegativeFloatKeepsSign` state this.
  - No leading zeros are stripped: the text keys `"001"` and `"1"` do not match. `TextKeysScenario` states this.

## Model

| member | source | states |
|---|---|---|
| Cells.KeyOfSameValue | streamlit_app.py:68-70 | two cells get the same deduplication key exactly when they hold the same value: both null, equal texts, or numbers of equal value whether integer or float; a text never equals a number |
| Cells.KeyOfIntFloat | streamlit_app.py:68-70 | an integer and the integral float of the same value are the same key (Python `1 == 1.0`) |
| Cells.NatToString | streamlit_app.py:38 | `str()` of a natural number is a non-empty string of digits without a leading zero unless the number is 0 |
| Cells.IntToString | streamlit_app.py:38 | `str()` of an integer is all digits exactly when the integer is non-negative, and starts with `-` followed by digits otherwise |
| Cells.ParseIntToString | streamlit_app.py:51 | reading back `str(int(value))` gives the integer: the rendering loses nothing |
| Cells.IntToStringInjective | streamlit_app.py:51 | two integers render alike exactly when they are equal |
| Normalizer.Trim | streamlit_app.py:40-43 | dropping `trim_start` characters then `trim_end` characters is one contiguous slice of the text, empty when the counts cover the text, with non-positive counts dropping nothing |
| Normalizer.KeepDigitsContents | streamlit_app.py:46 | the digit filter keeps every digit of the text and nothing else |
| Normalizer.KeepDigitsAppend | streamlit_app.py:46 | the digit filter distributes over concatenation, so it keeps the text's order |
| Normalizer.KeepDigitsIdempotent | streamlit_app.py:46 | filtering digits twice equals filtering once |
| Normalizer.NormalizeValue | streamlit_app.py:29-57 | a null cell gives `""`; a text or integer cell gives only digits, no longer than what the trims leave; an integral float gives a signed decimal whose value is the float's integer value |
| Normalizer.NormalizeIsDigitsOfSlice | streamlit_app.py:38-46 | for text and integer cells the key equals the digits of the slice from `trim_start` up to `trim_end` characters before the end |
| Normalizer.TrimPastEndIsEmpty | streamlit_app.py:40-43 | trimming past the end from either side leaves the empty key |
| Normalizer.FloatIgnoresTrim | streamlit_app.py:48-51 | an integral float's key is `str(int(value))` whatever the trim counts are |
| Normalizer.FloatAgreesWithInt | streamlit_app.py:38-51 | without trims, a non-negative integer and the equal float get the same key, its decimal digits |
| Normalizer.NegativeFloatKeepsSign | streamlit_app.py:38-51 | a negative float's key starts with `-`, unlike the key of the equal integer, which loses its sign to the digit filter |
| Normalizer.TrimExample | streamlit_app.py:38-46 | `"AB-12-34"` with trims 3 and 1 gives `"123"` |
| Normalizer.NormalizeColumn | streamlit_app.py:59-66 | fails exactly when the source column is missing; otherwise the same rows, with the target column (the new name when given, otherwise the source column) holding each row's normalized source cell, and every other cell unchanged; a new target is appended as the last column |
| Dedup.UniqueSnoc | streamlit_app.py:68-70 | one more input row is kept exactly when its key has not been seen before |
| Dedup.DropDuplicates | streamlit_app.py:68-70 | the one-pass seen-set algorithm returns exactly the first-occurrence rows |
| Dedup.UniqueSpec | streamlit_app.py:68-70 | the kept rows are an order-preserving subsequence, their keys are pairwise distinct, every input key is kept, and each kept row is its key's first occurrence |
| Dedup.UniqueCount | streamlit_app.py:68-70 | the number of kept rows is the number of distinct keys |
| Dedup.UniqueRecords | streamlit_app.py:68-70 | fails exactly when the column is missing; otherwise keeps the columns and one row per distinct value of the column |
| Dedup.UniqueRecordsSpec | streamlit_app.py:68-70 | the rows kept from a table form a subsequence of its rows, are distinct in the column, cover every value, and each is the first row with its value |
| Dedup.UniqueRecordsExample | streamlit_app.py:68-70 | rows keyed 1, 2, 1 keep the first two |
| Join.JoinSize | streamlit_app.py:409-414 | the merge has, for each left row, as many rows as the right side has rows with its key (duplicates multiply) |
| Join.JoinMembership | streamlit_app.py:409-414 | a row is in the merge exactly when it combines a left row and a right row with equal keys |
| Join.JoinRows | streamlit_app.py:409-414 | the same characterization, for all rows at once |
| Join.JoinKeys | streamlit_app.py:409-414 | the merge's keys are the keys both sides have |
| Join.JoinFirstRow | streamlit_app.py:409-428 | the first merged row with a key pairs the first left row and the first right row with that key |
| Join.JoinDistinct | streamlit_app.py:409-414 | when neither side repeats a key, neither does the merge |
| Join.NonMatchesExact | streamlit_app.py:416-425 | the non-matches are exactly the left rows whose key the right side lacks, in their original order, each padded with nulls |
| Join.NonMatchKeys | streamlit_app.py:417 | the non-matches' keys are the left keys minus the right keys |
| Join.NonMatchesDistinct | streamlit_app.py:417 | the non-matches repeat no key when the left side repeats none |
| Join.NonMatchCount | streamlit_app.py:417 | there are as many non-matches as left rows whose key the right side lacks, whatever the row order |
| Join.UniqueByKeySpec | streamlit_app.py:428-429 | deduplicating on `normalized_key` keeps a subsequence with distinct keys, the same key set, and each key's first row |
| Join.UniqueByKeyCount | streamlit_app.py:428-429 | deduplicating on the key keeps one row per distinct key |
| Join.UniqueByKeyOfDistinct | streamlit_app.py:428-429 | rows whose keys are already distinct lose nothing |
| Join.UniqueSplit | streamlit_app.py:409-459 | the unique matches and unique non-matches have disjoint keys (the shared and the missing ones), and together they number the left side's distinct keys |
| LengthStats.Lengths | streamlit_app.py:133 | the lengths are those of the non-null values, one entry per value and in column order, so repeated lengths are kept; a length occurs exactly when some non-null value has it |
| LengthStats.MinOf | streamlit_app.py:137 | the minimum is one of the lengths and no larger than any |
| LengthStats.MaxOf | streamlit_app.py:138 | the maximum is one of the lengths and no smaller than any |
| LengthStats.CalculateLengthStats | streamlit_app.py:131-140 | all zeros when no value is present; otherwise min and max are lengths of actual values, every length lies between them, and the mean is the sum of the lengths over their count, so min <= mean <= max |
| LengthStats.LengthStatsExample | streamlit_app.py:131-140 | lengths 1, 2, 3 give min 1, max 3, mean 2 |
| LengthStats.LengthStatsEmpty | streamlit_app.py:134-135 | an empty column gives zeros |
| Matcher.RenameDistinct | streamlit_app.py:394-406 | renaming with a dataset suffix keeps distinct column names distinct |
| Matcher.OutputColumnsDistinct | streamlit_app.py:394-424 | `normalized_key`, the dataset-2 extras renamed with `_dataset2` and the dataset-1 extras renamed with `_dataset1` are pairwise distinct, even when both datasets chose columns of the same name |
| Matcher.CompareColumnsDistinct | streamlit_app.py:394-424 | a completed comparison's output columns carry no repeated label |
| Matcher.Locate | streamlit_app.py:396-403 | selecting columns succeeds exactly when all are present, giving each one's position; otherwise it names a missing one |
| Matcher.NormalizedColumns | streamlit_app.py:375-388 | the normalized table has the source's columns plus `normalized_key` |
| Matcher.Project | streamlit_app.py:390-406 | the projection fails exactly when an extra column is missing; otherwise it has the renamed extras, and each row's key is its normalized key cell and its extras the selected cells |
| Matcher.ProjectedOutcome | streamlit_app.py:375-406 | a source's projection exists exactly when its key column and extras exist, and otherwise names a missing extra |
| Join.ResultWidths | streamlit_app.py:409-429 | with `a` extras per dataset-2 row and `b` per dataset-1 row, every row of the merge, of the null-padded non-matches and of their deduplicated forms carries `a + b` extras |
| Matcher.ReconcileShape | streamlit_app.py:409-429 | the result is rectangular: every row of the matches, the non-matches and their unique forms has one cell per output column after `normalized_key` |
| Matcher.CompareShape | streamlit_app.py:390-429 | the same, for every completed comparison of two sources |
| Matcher.Compare | streamlit_app.py:348-464 | succeeds exactly when both key columns are selected and present and all extras exist; an unselected key gives `NoKeyColumn`; otherwise the first failing lookup, in the order key 1, key 2, extras 1, extras 2, names a column that is really missing; the output column order |
| Matcher.ReconcileStatistics | streamlit_app.py:427-460 | unique matches are the shared keys and unique non-matches the dataset-2-only keys, together the distinct dataset-2 keys; duplicate matches are the merge cardinality minus the unique matches, duplicate non-matches the number of dataset-2 rows whose key dataset 1 lacks minus the unique non-matches; `total_unique` counts raw values |
| Matcher.ReconcileMatches | streamlit_app.py:409-414 | the matches number the merge cardinality and are exactly the pairs of rows with equal keys |
| Matcher.ReconcileUniqueMatches | streamlit_app.py:409-428 | each unique match pairs the first dataset-2 and the first dataset-1 row with its key, a key both sides have |
| Matcher.ReconcileNonMatches | streamlit_app.py:416-425 | the non-matches are the dataset-2 rows with keys dataset 1 lacks, in order, with one null per dataset-1 extra |
| Matcher.CompareStatistics | streamlit_app.py:348-460 | in terms of the sources: unique matches count the shared normalized keys, with unique non-matches they count dataset 2's distinct normalized keys, and duplicate non-matches are the positions of dataset 2 whose normalized key dataset 1 lacks, minus the distinct such keys |
| Matcher.ReconcileWithoutDuplicates | streamlit_app.py:458-459 | when neither side repeats a key, both duplicate counts are zero |
| Matcher.ReconcileLengths | streamlit_app.py:462-464 | the length statistics of the unique matches describe the keys both datasets share, those of the unique non-matches the dataset-2 keys dataset 1 lacks: zeros when there is none, otherwise min and max are lengths of such keys and bound every such key's length and the mean |
| Matcher.TextKeysScenario | streamlit_app.py:375-460 | keys `"001"`, `"002"` against `"1"`, `"2"`, `"3"`: no match, three unique non-matches |
| Matcher.FloatKeysScenario | streamlit_app.py:375-460 | floats 1.0, 2.0 against texts `"1"`, `"2"`, `"3"`: two unique matches, one unique non-match, no duplicates |

## Left out

- Accent removal (`remove_accents`, lines 18-27, and the pass over the output at lines 431-434): it changes only the non-key text columns of the output, which the model keeps as cells.
- `astype(str)` of the outputs (lines 437-438) is not modelled: it is presentation only. It leaves the key column unchanged because the keys are already strings.
- The Excel workbook and the session state (lines 440-450, 466): output plumbing.
- `load_data` and `load_db_data` (lines 72-96): spreadsheet and SQLite I/O. The model starts from the loaded tables.
- `apply_filters` (lines 98-129): widget-driven row filters that `main` never calls.
- `display_comparison_results` (lines 142-206), with its `filter_dataframe` search: never called, and made of widgets.
- The summary text and date formatting (lines 549-585), caching, temporary files and every `st.*` widget: presentation and UI.
- Floats that are not integral, NaN and infinities: `Cell` has only integral floats. NaN is the null cell. A non-integral float's key (the digits of its `str()`) is not modelled.
- `Cells.IsDigit` accepts only ASCII `0`-`9`. Python's `isdigit` also accepts other Unicode digits.
- The `except` fallback of `normalize_value` (lines 55-57) cannot be reached by the modelled cells, so it is not modelled.
- Duplicate column labels in a loaded table are not modelled: `WellFormed` requires distinct labels. A query result with two columns of the same name has them. Picking one extra column twice is not modelled either: `CompareColumnsDistinct` assumes each side's extras are distinct, as a multi-select widget returns them.
- Pandas merge row order: `InnerJoin` lists each left row's matches in left-row order, as pandas 2.2 and later documents. Older pandas groups rows by key. Every property above except the exact row sequence of `matches` holds for either order.
- LengthStats.CalculateLengthStats: the mean is the exact rational quotient. The source rounds its floating-point mean to two decimals, and that rounding is not modelled.
- Cells.Str: a float's text is modelled as `str(int(value)) + ".0"`. This is Python's form only for magnitudes below 10^16. It affects only length statistics of raw float columns, which `Compare` never computes: the key column is always text.
- Matcher.Compare: the "no data loaded" guard (lines 350-351) is not modelled, because loading is outside the model. `Compare` covers only the selected-key guard.

=== FILE: cells.dfy ===
/** Cells of a table and their textual forms.

    A cell holds what a dataframe cell holds after loading a spreadsheet or a
    query result: nothing (null / NaN), a text, an integer, or a floating-point
    number. Only floats with an integral value are represented; their value is
    kept as the integer `int(value)` would produce. */
module Cells {

  datatype Cell =
    | Null
    | Text(s: string)
    | Int(n: int)
    | IntegralFloat(f: int)

  /** What a dataframe compares when it looks for duplicate values: Python's
      equality, under which the integer 1 and the float 1.0 are the same value. */
  datatype CellKey = NullKey | TextKey(s: string) | NumKey(n: int)

  function KeyOf(c: Cell): (k: CellKey)
    ensures k.NullKey? <==> c.Null?
    ensures c.Text? ==> k == TextKey(c.s)
    ensures (c.Int? || c.IntegralFloat?) ==> k.NumKey?
  {
    match c
    case Null => NullKey
    case Text(s) => TextKey(s)
    case Int(n) => NumKey(n)
    case IntegralFloat(f) => NumKey(f)
  }

  /** The numeric value of an integer or integral-float cell. */
  function NumValue(c: Cell): int
    requires c.Int? || c.IntegralFloat?
  {
    if c.Int? then c.n else c.f
  }

  /** When `drop_duplicates` treats two cells as the same value: Python's
      equality, under which a text never equals a number and an integer
      equals the float of the same value, except that all nulls are alike
      (pandas groups missing values together). */
  predicate SameValue(a: Cell, b: Cell) {
    || (a.Null? && b.Null?)
    || (a.Text? && b.Text? && a.s == b.s)
    || ((a.Int? || a.IntegralFloat?) && (b.Int? || b.IntegralFloat?) && NumValue(a) == NumValue(b))
  }

  /** Two cells get the same key exactly when they hold the same value. */
  lemma KeyOfSameValue(a: Cell, b: Cell)
    ensures KeyOf(a) == KeyOf(b) <==> SameValue(a, b)
  {
  }

  /** An integer and an integral float with the same value have the same key. */
  lemma KeyOfIntFloat(n: int)
    ensures KeyOf(Int(n)) == KeyOf(IntegralFloat(n))
  {
  }

  // ---------------------------------------------------------------------------
  // Decimal digits (ASCII only)

  predicate IsDigit(c: char) {
    '0' <= c <= '9'
  }

  predicate AllDigits(s: string) {
    forall i :: 0 <= i < |s| ==> IsDigit(s[i])
  }

  function DigitChar(d: nat): (c: char)
    requires d < 10
    ensures IsDigit(c)
  {
    ('0' as int + d) as char
  }

  function DigitValue(c: char): (d: nat)
    requires IsDigit(c)
    ensures d < 10
  {
    c as int - '0' as int
  }

  lemma DigitRoundTrip(d: nat)
    requires d < 10
    ensures DigitValue(DigitChar(d)) == d
  {
  }

  // ---------------------------------------------------------------------------
  // Python's str() of an int, and its inverse

  /** Decimal rendering of a natural number, most significant digit first. */
  function NatToString(n: nat): (r: string)
    ensures |r| >= 1 && AllDigits(r)
    ensures r[0] == '0' ==> n == 0
  {
    if n < 10 then [DigitChar(n)]
    else
      var p := NatToString(n / 10);
      assert (p + [DigitChar(n % 10)])[0] == p[0];
      p + [DigitChar(n % 10)]
  }

  /** Decimal rendering of an integer: a leading '-' for negative values. */
  function IntToString(n: int): (r: string)
    ensures |r| >= 1
    ensures n >= 0 <==> AllDigits(r)
    ensures n < 0 ==> r[0] == '-' && AllDigits(r[1..])
  {
    if n >= 0 then NatToString(n)
    else
      var r := "-" + NatToString(-n);
      assert r[1..] == NatToString(-n);
      assert !IsDigit(r[0]);
      r
  }

  /** Python's `str()` of a non-null cell. An integral float renders with a
      trailing ".0"; that is its form for magnitudes below 10^16. */
  function Str(c: Cell): string
    requires !c.Null?
  {
    match c
    case Text(s) => s
    case Int(n) => IntToString(n)
    case IntegralFloat(f) => IntToString(f) + ".0"
  }

  /** The value of a string of decimal digits. */
  function ParseNat(s: string): nat
    requires AllDigits(s)
  {
    if |s| == 0 then 0
    else ParseNat(s[..|s| - 1]) * 10 + DigitValue(s[|s| - 1])
  }

  /** Digits, optionally after one leading '-'. */
  predicate IsSignedDecimal(s: string) {
    AllDigits(s) || (|s| >= 1 && s[0] == '-' && AllDigits(s[1..]))
  }

  /** The value of an optionally '-'-signed string of decimal digits. */
  function ParseInt(s: string): int
    requires IsSignedDecimal(s)
  {
    if |s| >= 1 && s[0] == '-' then -(ParseNat(s[1..]) as int) else ParseNat(s)
  }

  lemma {:induction false} ParseNatToString(n: nat)
    ensures ParseNat(NatToString(n)) == n
  {
    var r := NatToString(n);
    if n < 10 {
      assert r[..0] == [];
      DigitRoundTrip(n);
    } else {
      ParseNatToString(n / 10);
      assert r[..|r| - 1] == NatToString(n / 10);
      DigitRoundTrip(n % 10);
    }
  }

  /** Parsing the decimal rendering of any integer gives the integer back. */
  lemma ParseIntToString(n: int)
    ensures ParseInt(IntToString(n)) == n
  {
    if n >= 0 {
      ParseNatToString(n);
    } else {
      ParseNatToString(-n);
      assert IntToString(n)[1..] == NatToString(-n);
    }
  }

  /** Distinct integers have distinct renderings. */
  lemma IntToStringInjective(a: int, b: int)
    ensures IntToString(a) == IntToString(b) <==> a == b
  {
    ParseIntToString(a);
    ParseIntToString(b);
  }
}

=== FILE: dedup.dfy ===
/** First-wins deduplication (`get_unique_records`): of the rows sharing a
    value in one column only the first is kept, and the kept rows stay in
    their original order. */
module Dedup {
  import opened Seqs
  import opened Cells
  import opened Tables

  /** Marks the rows a first-wins deduplication keeps: set exactly at the first
      occurrence of each key. */
  function FirstOccurrenceMask<K(==)>(keys: seq<K>): (m: seq<bool>)
    ensures |m| == |keys|
    ensures forall i :: 0 <= i < |keys| ==> (m[i] <==> keys[i] !in keys[..i])
  {
    seq(|keys|, i requires 0 <= i < |keys| => keys[i] !in keys[..i])
  }

  /** The positions `drop_duplicates` keeps. */
  function FirstIndices<K(==)>(keys: seq<K>): seq<nat> {
    TrueIndices(FirstOccurrenceMask(keys))
  }

  /** The elements of `s` whose key (the parallel entry of `keys`) has not
      been seen before, in order. */
  function Unique<T, K(==)>(s: seq<T>, keys: seq<K>): (r: seq<T>)
    requires |s| == |keys|
    ensures |r| <= |s|
  {
    Filter(s, FirstOccurrenceMask(keys))
  }

  lemma FirstOccurrenceMaskSnoc<K>(keys: seq<K>, k: K)
    ensures FirstOccurrenceMask(keys + [k]) == FirstOccurrenceMask(keys) + [k !in keys]
  {
    assert (keys + [k])[..|keys|] == keys;
    forall i | 0 <= i < |keys|
      ensures (keys + [k])[..i] == keys[..i]
    {
    }
  }

  /** Extending the input by one element extends the result by that element
      exactly when its key is new. */
  lemma UniqueSnoc<T, K>(s: seq<T>, keys: seq<K>, x: T, k: K)
    requires |s| == |keys|
    ensures Unique(s + [x], keys + [k]) == Unique(s, keys) + (if k in keys then [] else [x])
  {
    FirstOccurrenceMaskSnoc(keys, k);
    TrueIndicesSnoc(FirstOccurrenceMask(keys), k !in keys);
    SelectSnoc(s, x, FirstIndices(keys));
  }

  /** The hash-set algorithm a dataframe runs: one pass, remembering the keys
      seen so far. It computes the same rows as the mask definition. */
  method DropDuplicates<T, K(==)>(s: seq<T>, keys: seq<K>) returns (r: seq<T>)
    requires |s| == |keys|
    ensures r == Unique(s, keys)
  {
    r := [];
    var seen: set<K> := {};
    var i := 0;
    while i < |s|
      invariant 0 <= i <= |s|
      invariant forall k :: k in seen <==> k in keys[..i]
      invariant r == Unique(s[..i], keys[..i])
    {
      assert s[..i + 1] == s[..i] + [s[i]];
      assert keys[..i + 1] == keys[..i] + [keys[i]];
      UniqueSnoc(s[..i], keys[..i], s[i], keys[i]);
      if keys[i] !in seen {
        r := r + [s[i]];
        seen := seen + {keys[i]};
      }
      i := i + 1;
    }
    assert s[..i] == s && keys[..i] == keys;
  }

  /** What first-wins deduplication promises, over positions: the kept
      positions are increasing (the result is a subsequence), their keys are
      pairwise distinct, every key of the input is among them, and the
      position kept for a key is the key's first occurrence. */
  lemma UniqueSpec<T, K>(s: seq<T>, keys: seq<K>)
    requires |s| == |keys|
    ensures var idx := FirstIndices(keys);
            && Embeds(Unique(s, keys), s, idx)
            && Embeds(Unique(keys, keys), keys, idx)
            && Distinct(Unique(keys, keys))
            && (forall i :: 0 <= i < |keys| ==> keys[i] in Unique(keys, keys))
            && (forall j :: 0 <= j < |idx| ==> idx[j] == FirstIndexOf(keys, keys[idx[j]]))
  {
    var idx := FirstIndices(keys);
    var uk := Unique(keys, keys);
    forall j | 0 <= j < |idx|
      ensures idx[j] == FirstIndexOf(keys, keys[idx[j]])
    {
      FirstIndexOfUnique(keys, keys[idx[j]], idx[j]);
    }
    forall i | 0 <= i < |keys|
      ensures keys[i] in uk
    {
      var f := FirstIndexOf(keys, keys[i]);
      var j :| 0 <= j < |idx| && idx[j] == f;
      assert uk[j] == keys[i];
    }
    forall j, k | 0 <= j < k < |uk|
      ensures uk[j] != uk[k]
    {
      assert keys[..idx[k]][idx[j]] == uk[j];
    }
  }

  /** The number of rows kept is the number of distinct keys. */
  lemma UniqueCount<T, K>(s: seq<T>, keys: seq<K>)
    requires |s| == |keys|
    ensures |Unique(s, keys)| == |set k | k in keys|
  {
    UniqueSpec(s, keys);
    var uk := Unique(keys, keys);
    DistinctCard(uk);
    assert (set k | k in uk) == (set k | k in keys);
  }

  // ---------------------------------------------------------------------------
  // get_unique_records on a table

  /** The keys `drop_duplicates` compares for column `c`. */
  function ColumnKeys(t: Table, c: nat): (ks: seq<CellKey>)
    requires WellFormed(t) && c < |t.columns|
    ensures |ks| == |t.rows|
    ensures forall i :: 0 <= i < |t.rows| ==> ks[i] == KeyOf(t.rows[i][c])
  {
    seq(|t.rows|, i requires 0 <= i < |t.rows| => KeyOf(t.rows[i][c]))
  }

  /** `get_unique_records` of a table and a column name: fails when the
      column is absent, otherwise keeps the columns and the first row of each
      distinct value. */
  function UniqueRecords(t: Table, column: string): (r: Result<Table>)
    requires WellFormed(t)
    ensures r.Ok? <==> column in t.columns
    ensures r.Err? ==> r.error == ColumnNotFound(column)
    ensures r.Ok? ==> r.value.columns == t.columns && WellFormed(r.value)
    ensures r.Ok? ==> |r.value.rows| == |set k | k in ColumnKeys(t, ColumnIndex(t, column))|
  {
    if column !in t.columns then Err(ColumnNotFound(column))
    else
      var keys := ColumnKeys(t, ColumnIndex(t, column));
      var rows := Unique(t.rows, keys);
      UniqueCount(t.rows, keys);
      Ok(Table(t.columns, rows))
  }

  /** The rows `get_unique_records` keeps are an order-preserving subsequence
      of the input rows, have pairwise distinct values in the column, cover
      every value of the column, and each is the first row with its value. */
  lemma UniqueRecordsSpec(t: Table, column: string)
    requires WellFormed(t) && column in t.columns
    ensures var c := ColumnIndex(t, column);
            var u := UniqueRecords(t, column).value;
            && (exists idx :: Embeds(u.rows, t.rows, idx))
            && Distinct(ColumnKeys(u, c))
            && (forall i :: 0 <= i < |t.rows| ==> KeyOf(t.rows[i][c]) in ColumnKeys(u, c))
            && (forall j :: 0 <= j < |u.rows| ==>
                  u.rows[j] == t.rows[FirstIndexOf(ColumnKeys(t, c), KeyOf(u.rows[j][c]))])
  {
    var c := ColumnIndex(t, column);
    var keys := ColumnKeys(t, c);
    var u := UniqueRecords(t, column).value;
    var idx := FirstIndices(keys);
    UniqueSpec(t.rows, keys);
    assert Embeds(u.rows, t.rows, idx);
    assert ColumnKeys(u, c) == Unique(keys, keys);
  }

  lemma TrueIndicesExample()
    ensures TrueIndices([true, true, false]) == [0, 1]
  {
    assert [true][..0] == [];
    assert [true, true][..1] == [true];
    assert [true, true, false][..2] == [true, true];
  }

  /** Worked example: rows (1,"a"), (2,"b"), (1,"c") keep (1,"a") and (2,"b"). */
  lemma UniqueRecordsExample()
    ensures var t := Table(["k", "v"], [[Int(1), Text("a")], [Int(2), Text("b")], [Int(1), Text("c")]]);
            UniqueRecords(t, "k") == Ok(Table(["k", "v"], [[Int(1), Text("a")], [Int(2), Text("b")]]))
  {
    var t := Table(["k", "v"], [[Int(1), Text("a")], [Int(2), Text("b")], [Int(1), Text("c")]]);
    assert ColumnIndex(t, "k") == 0;
    var keys := ColumnKeys(t, 0);
    assert keys == [NumKey(1), NumKey(2), NumKey(1)];
    var m := FirstOccurrenceMask(keys);
    assert keys[..1] == [NumKey(1)] && keys[..2] == [NumKey(1), NumKey(2)];
    assert m == [true, true, false];
    TrueIndicesExample();
    assert Unique(t.rows, keys) == [t.rows[0], t.rows[1]];
  }
}

=== FILE: join.dfy ===
/** The projections a comparison works on, and the three row operations the
    comparison in `main` of streamlit_app.py applies to them: the inner merge
    on `normalized_key`, the rows of one side whose key the other side lacks,
    and first-wins deduplication on the key. */
module Join {
  import opened Seqs
  import opened Cells
  import opened Dedup

  /** One row of a projection: its `normalized_key` followed by its extra cells. */
  datatype KeyedRow = KeyedRow(key: string, extras: seq<Cell>)

  function Keys(rows: seq<KeyedRow>): (ks: seq<string>)
    ensures |ks| == |rows|
    ensures forall i :: 0 <= i < |rows| ==> ks[i] == rows[i].key
  {
    seq(|rows|, i requires 0 <= i < |rows| => rows[i].key)
  }

  /** The distinct keys of a projection. */
  function KeySet(rows: seq<KeyedRow>): set<string> {
    set k | k in Keys(rows)
  }

  lemma KeysAppend(a: seq<KeyedRow>, b: seq<KeyedRow>)
    ensures Keys(a + b) == Keys(a) + Keys(b)
  {
  }

  lemma KeysTail(rows: seq<KeyedRow>)
    requires rows != []
    ensures Keys(rows) == [rows[0].key] + Keys(rows[1..])
  {
  }

  // ---------------------------------------------------------------------------
  // Inner merge

  /** The merged row: the left row's key and extras, then the right row's extras. */
  function Combine(l: KeyedRow, r: KeyedRow): KeyedRow {
    KeyedRow(l.key, l.extras + r.extras)
  }

  /** The merged rows one left row contributes: one per right row with the
      same key, in the right side's order. */
  function MatchesFor(l: KeyedRow, right: seq<KeyedRow>): (m: seq<KeyedRow>)
    ensures forall x :: x in m ==> x.key == l.key
  {
    if right == [] then []
    else (if right[0].key == l.key then [Combine(l, right[0])] else []) + MatchesFor(l, right[1..])
  }

  /** The inner merge of two projections on their keys: for each left
      row in order, its combinations with the matching right rows. */
  function InnerJoin(left: seq<KeyedRow>, right: seq<KeyedRow>): seq<KeyedRow> {
    if left == [] then []
    else MatchesFor(left[0], right) + InnerJoin(left[1..], right)
  }

  /** One left row yields as many merged rows as the right side has rows with its key. */
  lemma {:induction false} MatchesForSize(l: KeyedRow, right: seq<KeyedRow>)
    ensures |MatchesFor(l, right)| == multiset(Keys(right))[l.key]
  {
    if right != [] {
      MatchesForSize(l, right[1..]);
      KeysTail(right);
      assert multiset(Keys(right)) == multiset{right[0].key} + multiset(Keys(right[1..]));
    }
  }

  /** The sum, over the left rows, of the number of right rows sharing the key. */
  function MatchCount(left: seq<KeyedRow>, right: seq<KeyedRow>): nat {
    if left == [] then 0
    else multiset(Keys(right))[left[0].key] + MatchCount(left[1..], right)
  }

  /** Merge cardinality: duplicate keys on both sides multiply. */
  lemma {:induction false} JoinSize(left: seq<KeyedRow>, right: seq<KeyedRow>)
    ensures |InnerJoin(left, right)| == MatchCount(left, right)
  {
    if left != [] {
      MatchesForSize(left[0], right);
      JoinSize(left[1..], right);
    }
  }

  lemma {:induction false} MatchesForMembership(l: KeyedRow, right: seq<KeyedRow>, m: KeyedRow)
    ensures m in MatchesFor(l, right) <==>
            exists j :: 0 <= j < |right| && right[j].key == l.key && m == Combine(l, right[j])
  {
    if right != [] {
      MatchesForMembership(l, right[1..], m);
      if m in MatchesFor(l, right[1..]) {
        var j :| 0 <= j < |right[1..]| && right[1..][j].key == l.key && m == Combine(l, right[1..][j]);
        assert right[j + 1] == right[1..][j];
      }
      if exists j :: 0 <= j < |right| && right[j].key == l.key && m == Combine(l, right[j]) {
        var j :| 0 <= j < |right| && right[j].key == l.key && m == Combine(l, right[j]);
        if j > 0 {
          assert right[1..][j - 1] == right[j];
        }
      }
    }
  }

  /** A row is in the merge exactly when it combines a left row and a right
      row with equal keys. */
  lemma {:induction false} JoinMembership(left: seq<KeyedRow>, right: seq<KeyedRow>, m: KeyedRow)
    ensures m in InnerJoin(left, right) <==>
            exists i, j :: 0 <= i < |left| && 0 <= j < |right| &&
                           left[i].key == right[j].key && m == Combine(left[i], right[j])
  {
    if left != [] {
      MatchesForMembership(left[0], right, m);
      JoinMembership(left[1..], right, m);
      if m in InnerJoin(left[1..], right) {
        var i, j :| 0 <= i < |left[1..]| && 0 <= j < |right| &&
                    left[1..][i].key == right[j].key && m == Combine(left[1..][i], right[j]);
        assert left[i + 1] == left[1..][i];
      }
      if exists i, j :: 0 <= i < |left| && 0 <= j < |right| &&
                        left[i].key == right[j].key && m == Combine(left[i], right[j]) {
        var i, j :| 0 <= i < |left| && 0 <= j < |right| &&
                    left[i].key == right[j].key && m == Combine(left[i], right[j]);
        if i > 0 {
          assert left[1..][i - 1] == left[i];
        }
      }
    }
  }

  /** The merge as a whole: its rows are exactly the combinations of a left
      and a right row with equal keys. */
  lemma JoinRows(left: seq<KeyedRow>, right: seq<KeyedRow>)
    ensures forall m :: m in InnerJoin(left, right) <==>
              exists i, j :: 0 <= i < |left| && 0 <= j < |right| &&
                             left[i].key == right[j].key && m == Combine(left[i], right[j])
  {
    forall m ensures m in InnerJoin(left, right) <==>
              exists i, j :: 0 <= i < |left| && 0 <= j < |right| &&
                             left[i].key == right[j].key && m == Combine(left[i], right[j])
    {
      JoinMembership(left, right, m);
    }
  }

  /** The keys of the merge are the keys both sides have. */
  lemma JoinKeys(left: seq<KeyedRow>, right: seq<KeyedRow>)
    ensures KeySet(InnerJoin(left, right)) == KeySet(left) * KeySet(right)
  {
    var join := InnerJoin(left, right);
    forall k | k in KeySet(join)
      ensures k in KeySet(left) && k in KeySet(right)
    {
      var p :| 0 <= p < |join| && Keys(join)[p] == k;
      JoinMembership(left, right, join[p]);
      var i, j :| 0 <= i < |left| && 0 <= j < |right| &&
                  left[i].key == right[j].key && join[p] == Combine(left[i], right[j]);
      assert Keys(left)[i] == k && Keys(right)[j] == k;
    }
    forall k | k in KeySet(left) && k in KeySet(right)
      ensures k in KeySet(join)
    {
      var i :| 0 <= i < |left| && Keys(left)[i] == k;
      var j :| 0 <= j < |right| && Keys(right)[j] == k;
      JoinMembership(left, right, Combine(left[i], right[j]));
      var p :| 0 <= p < |join| && join[p] == Combine(left[i], right[j]);
      assert Keys(join)[p] == k;
    }
  }

  lemma {:induction false} MatchesForFirst(l: KeyedRow, right: seq<KeyedRow>)
    requires l.key in Keys(right)
    ensures |MatchesFor(l, right)| > 0
    ensures MatchesFor(l, right)[0] == Combine(l, right[FirstIndexOf(Keys(right), l.key)])
  {
    KeysTail(right);
    if right[0].key == l.key {
      FirstIndexOfUnique(Keys(right), l.key, 0);
    } else {
      MatchesForFirst(l, right[1..]);
      FirstIndexOfAppend([right[0].key], Keys(right[1..]), l.key);
    }
  }

  /** The first merged row with a key pairs the first left row with that key
      and the first right row with that key: the row deduplication keeps. */
  lemma {:induction false} JoinFirstRow(left: seq<KeyedRow>, right: seq<KeyedRow>, k: string)
    requires k in Keys(left) && k in Keys(right)
    ensures var join := InnerJoin(left, right);
            && k in Keys(join)
            && join[FirstIndexOf(Keys(join), k)] ==
               Combine(left[FirstIndexOf(Keys(left), k)], right[FirstIndexOf(Keys(right), k)])
  {
    KeysTail(left);
    if left[0].key == k {
      JoinFirstRowHead(left, right, k);
    } else {
      JoinFirstRow(left[1..], right, k);
      JoinFirstRowTail(left, right, k);
    }
  }

  /** The case of `JoinFirstRow` where the first left row has the key. */
  lemma JoinFirstRowHead(left: seq<KeyedRow>, right: seq<KeyedRow>, k: string)
    requires left != [] && left[0].key == k && k in Keys(right)
    ensures var join := InnerJoin(left, right);
            && k in Keys(left) && k in Keys(join)
            && join[FirstIndexOf(Keys(join), k)] ==
               Combine(left[FirstIndexOf(Keys(left), k)], right[FirstIndexOf(Keys(right), k)])
  {
    var a := MatchesFor(left[0], right);
    var b := InnerJoin(left[1..], right);
    assert InnerJoin(left, right) == a + b;
    KeysAppend(a, b);
    MatchesForFirst(left[0], right);
    assert Keys(left)[0] == k;
    FirstIndexOfUnique(Keys(left), k, 0);
    assert Keys(a + b)[0] == k;
    FirstIndexOfUnique(Keys(a + b), k, 0);
  }

  /** The case of `JoinFirstRow` where the first left row has another key:
      the first merged row with the key comes from the remaining left rows. */
  lemma JoinFirstRowTail(left: seq<KeyedRow>, right: seq<KeyedRow>, k: string)
    requires left != [] && left[0].key != k && k in Keys(right)
    requires k in Keys(left[1..])
    requires var join := InnerJoin(left[1..], right);
             && k in Keys(join)
             && join[FirstIndexOf(Keys(join), k)] ==
                Combine(left[1..][FirstIndexOf(Keys(left[1..]), k)], right[FirstIndexOf(Keys(right), k)])
    ensures var join := InnerJoin(left, right);
            && k in Keys(left) && k in Keys(join)
            && join[FirstIndexOf(Keys(join), k)] ==
               Combine(left[FirstIndexOf(Keys(left), k)], right[FirstIndexOf(Keys(right), k)])
  {
    var a := MatchesFor(left[0], right);
    var b := InnerJoin(left[1..], right);
    assert InnerJoin(left, right) == a + b;
    MatchesForOtherKey(left[0], right, k);
    FirstRowAppend(a, b, k);
    FirstRowPastHead(left, k);
  }

  /** When the first row has another key, the first row with `k` is the
      first such row of the rest. */
  lemma FirstRowPastHead(rows: seq<KeyedRow>, k: string)
    requires rows != [] && rows[0].key != k && k in Keys(rows[1..])
    ensures k in Keys(rows)
    ensures rows[FirstIndexOf(Keys(rows), k)] == rows[1..][FirstIndexOf(Keys(rows[1..]), k)]
  {
    assert Keys([rows[0]]) == [rows[0].key];
    assert rows == [rows[0]] + rows[1..];
    FirstRowAppend([rows[0]], rows[1..], k);
  }

  /** The merged rows of one left row carry only that row's key. */
  lemma MatchesForOtherKey(l: KeyedRow, right: seq<KeyedRow>, k: string)
    requires l.key != k
    ensures k !in Keys(MatchesFor(l, right))
  {
    var m := MatchesFor(l, right);
    assert forall j :: 0 <= j < |m| ==> m[j] in m;
  }

  /** The first row with key `k` in `a + b`, when `a` has no such row, is the
      first such row of `b`. */
  lemma FirstRowAppend(a: seq<KeyedRow>, b: seq<KeyedRow>, k: string)
    requires k !in Keys(a) && k in Keys(b)
    ensures k in Keys(a + b)
    ensures (a + b)[FirstIndexOf(Keys(a + b), k)] == b[FirstIndexOf(Keys(b), k)]
  {
    KeysAppend(a, b);
    FirstIndexOfAppend(Keys(a), Keys(b), k);
  }

  // ---------------------------------------------------------------------------
  // Non-matches

  function Nulls(n: nat): (r: seq<Cell>)
    ensures |r| == n && forall i :: 0 <= i < n ==> r[i] == Null
  {
    seq(n, _ => Null)
  }

  /** A left row with `n` null cells appended for the other side's extras. */
  function PadNulls(r: KeyedRow, n: nat): KeyedRow {
    KeyedRow(r.key, r.extras + Nulls(n))
  }

  /** Flags the left rows whose key does not occur among the right side's keys. */
  function AbsentMask(left: seq<KeyedRow>, right: seq<KeyedRow>): (m: seq<bool>)
    ensures |m| == |left|
    ensures forall i :: 0 <= i < |left| ==> (m[i] <==> left[i].key !in KeySet(right))
  {
    seq(|left|, i requires 0 <= i < |left| => left[i].key !in KeySet(right))
  }

  /** The left rows whose key the right side lacks, in order, each padded
      with `n` nulls in place of the right side's extras. */
  function NonMatches(left: seq<KeyedRow>, right: seq<KeyedRow>, n: nat): (r: seq<KeyedRow>)
    ensures |r| <= |left|
  {
    var kept := Filter(left, AbsentMask(left, right));
    seq(|kept|, j requires 0 <= j < |kept| => PadNulls(kept[j], n))
  }

  /** The non-matches are exactly the padded left rows whose key is absent
      from the right side, in their original order. */
  lemma NonMatchesExact(left: seq<KeyedRow>, right: seq<KeyedRow>, n: nat)
    ensures var nm := NonMatches(left, right, n);
            exists idx ::
              && StrictlyIncreasing(idx) && |idx| == |nm|
              && (forall j :: 0 <= j < |idx| ==> idx[j] < |left| && nm[j] == PadNulls(left[idx[j]], n))
              && (forall i :: 0 <= i < |left| ==> (i in idx <==> left[i].key !in KeySet(right)))
  {
    var idx := TrueIndices(AbsentMask(left, right));
    var nm := NonMatches(left, right, n);
    assert forall j :: 0 <= j < |idx| ==> idx[j] < |left| && nm[j] == PadNulls(left[idx[j]], n);
  }

  /** The positions of the left rows whose key the right side lacks. */
  function AbsentPositions(left: seq<KeyedRow>, right: seq<KeyedRow>): set<nat> {
    set i: nat | i < |left| && left[i].key !in KeySet(right)
  }

  /** There is one non-match per left row whose key the right side lacks,
      however the rows are ordered. */
  lemma NonMatchCount(left: seq<KeyedRow>, right: seq<KeyedRow>, n: nat)
    ensures |NonMatches(left, right, n)| == |AbsentPositions(left, right)|
  {
    var mask := AbsentMask(left, right);
    TrueIndicesCard(mask);
    assert (set i: nat | i < |mask| && mask[i]) == AbsentPositions(left, right);
  }

  /** The absent positions read off the left keys alone. */
  lemma AbsentPositionsOfKeys(left: seq<KeyedRow>, right: seq<KeyedRow>, ks: seq<string>)
    requires Keys(left) == ks
    ensures AbsentPositions(left, right) == set i: nat | i < |ks| && ks[i] !in KeySet(right)
  {
  }

  /** The keys of the non-matches are the left keys the right side lacks. */
  lemma NonMatchKeys(left: seq<KeyedRow>, right: seq<KeyedRow>, n: nat)
    ensures KeySet(NonMatches(left, right, n)) == KeySet(left) - KeySet(right)
  {
    var idx := TrueIndices(AbsentMask(left, right));
    var nm := NonMatches(left, right, n);
    forall k | k in KeySet(nm)
      ensures k in KeySet(left) && k !in KeySet(right)
    {
      var j :| 0 <= j < |nm| && Keys(nm)[j] == k;
      assert Keys(left)[idx[j]] == k;
    }
    forall k | k in KeySet(left) && k !in KeySet(right)
      ensures k in KeySet(nm)
    {
      var i :| 0 <= i < |left| && Keys(left)[i] == k;
      var j :| 0 <= j < |idx| && idx[j] == i;
      assert Keys(nm)[j] == k;
    }
  }

  // ---------------------------------------------------------------------------
  // Deduplication on normalized_key

  /** First-wins deduplication of a projection on its key column. */
  function UniqueByKey(rows: seq<KeyedRow>): (u: seq<KeyedRow>)
    ensures |u| <= |rows|
  {
    Unique(rows, Keys(rows))
  }

  /** Deduplication on the key keeps a subsequence with pairwise distinct
      keys, the same set of keys, and for each key its first row. */
  lemma UniqueByKeySpec(rows: seq<KeyedRow>)
    ensures var u := UniqueByKey(rows);
            && (exists idx :: Embeds(u, rows, idx))
            && Distinct(Keys(u))
            && KeySet(u) == KeySet(rows)
            && (forall j :: 0 <= j < |u| ==> u[j] == rows[FirstIndexOf(Keys(rows), u[j].key)])
  {
    var u := UniqueByKey(rows);
    var idx := FirstIndices(Keys(rows));
    UniqueSpec(rows, Keys(rows));
    assert Keys(u) == Unique(Keys(rows), Keys(rows));
    assert Embeds(u, rows, idx);
  }

  /** Deduplication on the key keeps one row per distinct key. */
  lemma UniqueByKeyCount(rows: seq<KeyedRow>)
    ensures |UniqueByKey(rows)| == |KeySet(rows)|
  {
    UniqueCount(rows, Keys(rows));
  }

  /** When neither side repeats a key, neither does the merge. */
  lemma {:induction false} JoinDistinct(left: seq<KeyedRow>, right: seq<KeyedRow>)
    requires Distinct(Keys(left)) && Distinct(Keys(right))
    ensures Distinct(Keys(InnerJoin(left, right)))
  {
    if left != [] {
      var a := MatchesFor(left[0], right);
      var b := InnerJoin(left[1..], right);
      KeysTail(left);
      assert Distinct(Keys(left[1..])) by {
        forall i, j | 0 <= i < j < |left[1..]| ensures Keys(left[1..])[i] != Keys(left[1..])[j] {
          assert Keys(left)[i + 1] != Keys(left)[j + 1];
        }
      }
      JoinDistinct(left[1..], right);
      MatchesForSize(left[0], right);
      DistinctCount(Keys(right), left[0].key);
      JoinKeys(left[1..], right);
      assert left[0].key !in KeySet(left[1..]);
      assert left[0].key !in Keys(b) by {
        assert left[0].key !in KeySet(b);
      }
      KeysAppend(a, b);
      DistinctPrepend(Keys(a), Keys(b), left[0].key);
    }
  }

  /** At most one copy of `x`, before a duplicate-free sequence without `x`,
      repeats nothing. */
  lemma DistinctPrepend(a: seq<string>, b: seq<string>, x: string)
    requires |a| <= 1 && (forall i :: 0 <= i < |a| ==> a[i] == x)
    requires Distinct(b) && x !in b
    ensures Distinct(a + b)
  {
  }

  /** A value occurs at most once in a duplicate-free sequence. */
  lemma {:induction false} DistinctCount<T>(s: seq<T>, x: T)
    requires Distinct(s)
    ensures multiset(s)[x] <= 1
  {
    if s != [] {
      assert Distinct(s[1..]) by {
        forall i, j | 0 <= i < j < |s[1..]| ensures s[1..][i] != s[1..][j] {
          assert s[i + 1] != s[j + 1];
        }
      }
      DistinctCount(s[1..], x);
      assert s == [s[0]] + s[1..];
      assert s[0] !in s[1..] by {
        assert forall k :: 0 <= k < |s[1..]| ==> s[1..][k] == s[k + 1] != s[0];
      }
    }
  }

  /** When the left side repeats no key, neither do its non-matches. */
  lemma NonMatchesDistinct(left: seq<KeyedRow>, right: seq<KeyedRow>, n: nat)
    requires Distinct(Keys(left))
    ensures Distinct(Keys(NonMatches(left, right, n)))
  {
    var idx := TrueIndices(AbsentMask(left, right));
    var nm := NonMatches(left, right, n);
    forall i, j | 0 <= i < j < |nm| ensures Keys(nm)[i] != Keys(nm)[j] {
      assert Keys(nm)[i] == Keys(left)[idx[i]] && Keys(nm)[j] == Keys(left)[idx[j]];
    }
  }

  /** Deduplicating rows whose keys are already distinct drops nothing. */
  lemma UniqueByKeyOfDistinct(rows: seq<KeyedRow>)
    requires Distinct(Keys(rows))
    ensures |UniqueByKey(rows)| == |rows|
  {
    UniqueByKeyCount(rows);
    DistinctCard(Keys(rows));
  }

  /** Deduplicated, the merge and the non-matches split the left side's
      distinct keys into those the right side has and those it lacks. */
  lemma UniqueSplit(left: seq<KeyedRow>, right: seq<KeyedRow>, n: nat)
    ensures var um := UniqueByKey(InnerJoin(left, right));
            var un := UniqueByKey(NonMatches(left, right, n));
            && KeySet(um) == KeySet(left) * KeySet(right)
            && KeySet(un) == KeySet(left) - KeySet(right)
            && KeySet(um) !! KeySet(un)
            && |um| == |KeySet(left) * KeySet(right)|
            && |un| == |KeySet(left) - KeySet(right)|
            && |um| + |un| == |KeySet(left)|
            && |um| <= |InnerJoin(left, right)|
            && |un| <= |NonMatches(left, right, n)|
  {
    var join := InnerJoin(left, right);
    var nm := NonMatches(left, right, n);
    var kl, kr := KeySet(left), KeySet(right);
    UniqueByKeySpec(join);
    UniqueByKeySpec(nm);
    UniqueByKeyCount(join);
    UniqueByKeyCount(nm);
    JoinKeys(left, right);
    NonMatchKeys(left, right, n);
    assert kl == (kl * kr) + (kl - kr);
    assert (kl * kr) !! (kl - kr);
  }

  // ---------------------------------------------------------------------------
  // Row widths

  /** Every row carries exactly `n` extra cells. */
  predicate ExtrasWidth(rows: seq<KeyedRow>, n: nat) {
    forall i :: 0 <= i < |rows| ==> |rows[i].extras| == n
  }

  /** A merged row carries the left side's extras followed by the right side's. */
  lemma JoinWidth(left: seq<KeyedRow>, right: seq<KeyedRow>, a: nat, b: nat)
    requires ExtrasWidth(left, a) && ExtrasWidth(right, b)
    ensures ExtrasWidth(InnerJoin(left, right), a + b)
  {
    var join := InnerJoin(left, right);
    JoinRows(left, right);
    forall p | 0 <= p < |join|
      ensures |join[p].extras| == a + b
    {
      assert join[p] in join;
      var i, j :| 0 <= i < |left| && 0 <= j < |right| &&
                  left[i].key == right[j].key && join[p] == Combine(left[i], right[j]);
    }
  }

  /** A non-match carries its own extras followed by `n` nulls. */
  lemma NonMatchesWidth(left: seq<KeyedRow>, right: seq<KeyedRow>, a: nat, n: nat)
    requires ExtrasWidth(left, a)
    ensures ExtrasWidth(NonMatches(left, right, n), a + n)
  {
    var idx := TrueIndices(AbsentMask(left, right));
    var nm := NonMatches(left, right, n);
    assert forall j :: 0 <= j < |nm| ==> nm[j] == PadNulls(left[idx[j]], n);
  }

  /** Deduplication keeps rows, so it keeps their width. */
  lemma UniqueByKeyWidth(rows: seq<KeyedRow>, n: nat)
    requires ExtrasWidth(rows, n)
    ensures ExtrasWidth(UniqueByKey(rows), n)
  {
    var idx := FirstIndices(Keys(rows));
    assert Embeds(UniqueByKey(rows), rows, idx);
  }

  /** With `a` extras on the left and `b` on the right, the merge, the
      non-matches padded with `b` nulls and their deduplicated forms all carry
      `a + b` extras per row. */
  lemma ResultWidths(left: seq<KeyedRow>, right: seq<KeyedRow>, a: nat, b: nat)
    requires ExtrasWidth(left, a) && ExtrasWidth(right, b)
    ensures ExtrasWidth(InnerJoin(left, right), a + b)
    ensures ExtrasWidth(NonMatches(left, right, b), a + b)
    ensures ExtrasWidth(UniqueByKey(InnerJoin(left, right)), a + b)
    ensures ExtrasWidth(UniqueByKey(NonMatches(left, right, b)), a + b)
  {
    JoinWidth(left, right, a, b);
    NonMatchesWidth(left, right, a, b);
    UniqueByKeyWidth(InnerJoin(left, right), a + b);
    UniqueByKeyWidth(NonMatches(left, right, b), a + b);
  }
}

=== FILE: length_stats.dfy ===
/** `calculate_length_stats` of streamlit_app.py: minimum, maximum and mean
    length of the non-null values of a column, rendered as text. */
module LengthStats {
  import opened Seqs
  import opened Cells

  datatype LengthStats = LengthStats(min: nat, max: nat, mean: real)

  /** Flags the cells that hold a value. */
  function PresentMask(series: seq<Cell>): (m: seq<bool>)
    ensures |m| == |series|
    ensures forall i :: 0 <= i < |series| ==> (m[i] <==> !series[i].Null?)
  {
    seq(|series|, i requires 0 <= i < |series| => !series[i].Null?)
  }

  /** The text length of every non-null value of the column, one entry per
      value, top to bottom. */
  function Lengths(series: seq<Cell>): (ls: seq<nat>)
    ensures |ls| <= |series|
    ensures exists idx ::
      && StrictlyIncreasing(idx) && |idx| == |ls|
      && (forall j :: 0 <= j < |idx| ==>
            idx[j] < |series| && !series[idx[j]].Null? && ls[j] == |Str(series[idx[j]])|)
      && (forall i :: 0 <= i < |series| && !series[i].Null? ==> i in idx)
    ensures forall x :: x in ls <==> exists i :: 0 <= i < |series| && !series[i].Null? && x == |Str(series[i])|
  {
    var idx := TrueIndices(PresentMask(series));
    var ls := seq(|idx|, j requires 0 <= j < |idx| => |Str(series[idx[j]])|);
    LengthsAt(series, idx, ls);
    ls
  }

  /** The lengths read at the positions of the non-null values are exactly
      the lengths of the non-null values. */
  lemma LengthsAt(series: seq<Cell>, idx: seq<nat>, ls: seq<nat>)
    requires idx == TrueIndices(PresentMask(series))
    requires |ls| == |idx| && forall j :: 0 <= j < |idx| ==> ls[j] == |Str(series[idx[j]])|
    ensures |ls| <= |series|
    ensures && StrictlyIncreasing(idx)
            && (forall j :: 0 <= j < |idx| ==>
                  idx[j] < |series| && !series[idx[j]].Null? && ls[j] == |Str(series[idx[j]])|)
            && (forall i :: 0 <= i < |series| && !series[i].Null? ==> i in idx)
    ensures forall x :: x in ls <==> exists i :: 0 <= i < |series| && !series[i].Null? && x == |Str(series[i])|
  {
    forall x | x in ls
      ensures exists i :: 0 <= i < |series| && !series[i].Null? && x == |Str(series[i])|
    {
      var j :| 0 <= j < |ls| && ls[j] == x;
      assert !series[idx[j]].Null?;
    }
    forall i | 0 <= i < |series| && !series[i].Null?
      ensures |Str(series[i])| in ls
    {
      var j :| 0 <= j < |idx| && idx[j] == i;
      assert ls[j] == |Str(series[i])|;
    }
  }

  function MinOf(ls: seq<nat>): (m: nat)
    requires ls != []
    ensures m in ls && forall x :: x in ls ==> m <= x
  {
    if |ls| == 1 then ls[0]
    else
      var m := MinOf(ls[1..]);
      assert forall x :: x in ls ==> x == ls[0] || x in ls[1..];
      if ls[0] <= m then ls[0] else m
  }

  function MaxOf(ls: seq<nat>): (m: nat)
    requires ls != []
    ensures m in ls && forall x :: x in ls ==> x <= m
  {
    if |ls| == 1 then ls[0]
    else
      var m := MaxOf(ls[1..]);
      assert forall x :: x in ls ==> x == ls[0] || x in ls[1..];
      if ls[0] >= m then ls[0] else m
  }

  function Sum(ls: seq<nat>): nat {
    if ls == [] then 0 else ls[0] + Sum(ls[1..])
  }

  /** A sum of values no smaller than `lo` and no larger than `hi` lies
      between `|ls| * lo` and `|ls| * hi`. */
  lemma {:induction false} SumBounds(ls: seq<nat>, lo: nat, hi: nat)
    requires forall x :: x in ls ==> lo <= x <= hi
    ensures |ls| * lo <= Sum(ls) <= |ls| * hi
  {
    if ls != [] {
      var n := |ls| - 1;
      assert ls[0] in ls;
      assert forall x :: x in ls[1..] ==> x in ls;
      SumBounds(ls[1..], lo, hi);
      MulSucc(n, lo);
      MulSucc(n, hi);
    }
  }

  lemma MulSucc(n: nat, x: nat)
    ensures (n + 1) * x == n * x + x
  {
  }

  lemma MeanBetween(lo: nat, hi: nat, sum: nat, count: nat)
    requires count > 0 && count * lo <= sum <= count * hi
    ensures lo as real <= sum as real / count as real <= hi as real
  {
    assert (count * lo) as real == count as real * lo as real;
    assert (count * hi) as real == count as real * hi as real;
  }

  /** `calculate_length_stats` of a column: all zero when the column has no
      non-null value; otherwise the least and greatest rendered length, both
      lengths of actual values, and their exact mean (not rounded). */
  function CalculateLengthStats(series: seq<Cell>): (r: LengthStats)
    ensures (forall i :: 0 <= i < |series| ==> series[i].Null?) ==> r == LengthStats(0, 0, 0.0)
    ensures (exists i :: 0 <= i < |series| && !series[i].Null?) ==>
      && r.min <= r.max
      && r.min as real <= r.mean <= r.max as real
      && (exists i :: 0 <= i < |series| && !series[i].Null? && |Str(series[i])| == r.min)
      && (exists i :: 0 <= i < |series| && !series[i].Null? && |Str(series[i])| == r.max)
      && (forall i :: 0 <= i < |series| && !series[i].Null? ==> r.min <= |Str(series[i])| <= r.max)
    ensures Lengths(series) != [] ==> r.mean == Sum(Lengths(series)) as real / |Lengths(series)| as real
  {
    var ls := Lengths(series);
    assert forall i :: 0 <= i < |series| && !series[i].Null? ==> |Str(series[i])| in ls;
    if ls == [] then StatsOf(ls)
    else
      SumBounds(ls, MinOf(ls), MaxOf(ls));
      MeanBetween(MinOf(ls), MaxOf(ls), Sum(ls), |ls|);
      StatsOf(ls)
  }

  /** Every present value's length lies between the minimum and the maximum. */
  lemma LengthWithinBounds(series: seq<Cell>, i: nat)
    requires i < |series| && !series[i].Null?
    ensures CalculateLengthStats(series).min <= |Str(series[i])| <= CalculateLengthStats(series).max
  {
  }

  /** Minimum, maximum and mean of a list of lengths; zeros for none. */
  function StatsOf(ls: seq<nat>): LengthStats {
    if ls == [] then LengthStats(0, 0, 0.0)
    else LengthStats(MinOf(ls), MaxOf(ls), Sum(ls) as real / |ls| as real)
  }

  lemma AllPresentIndices()
    ensures TrueIndices([true, true, true]) == [0, 1, 2]
  {
    assert [true, true, true][..2] == [true, true];
    assert [true, true][..1] == [true];
    assert [true][..0] == [];
  }

  lemma ExampleLengths()
    ensures Lengths([Text("1"), Text("22"), Text("333")]) == [1, 2, 3]
  {
    var series := [Text("1"), Text("22"), Text("333")];
    assert PresentMask(series) == [true, true, true];
    AllPresentIndices();
  }

  /** Worked example: lengths 1, 2 and 3 give minimum 1, maximum 3, mean 2. */
  lemma LengthStatsExample()
    ensures CalculateLengthStats([Text("1"), Text("22"), Text("333")]) == LengthStats(1, 3, 2.0)
  {
    ExampleLengths();
    ExampleStats();
  }

  lemma ExampleStats()
    ensures StatsOf([1, 2, 3]) == LengthStats(1, 3, 2.0)
  {
    assert [1, 2, 3][1..] == [2, 3];
    assert MinOf([1, 2, 3]) == 1;
    assert MaxOf([1, 2, 3]) == 3;
    assert Sum([1, 2, 3]) == 6;
  }

  /** An empty column gives all zeros. */
  lemma LengthStatsEmpty()
    ensures CalculateLengthStats([]) == LengthStats(0, 0, 0.0)
  {
  }
}

=== FILE: matcher.dfy ===
/** The comparison run by the "Comparar Datos" button in `main` of
    streamlit_app.py, as one pure function from the two data sources to the
    matches, the non-matches, their deduplicated forms and the statistics. */
module Matcher {
  import opened Seqs
  import opened Cells
  import opened Tables
  import opened Normalizer
  import opened Dedup
  import opened Join
  import opened LengthStats

  const KeyColumnName := "normalized_key"
  const Suffix1 := "_dataset1"
  const Suffix2 := "_dataset2"

  /** The cleaning options of one source; when disabled both counts are 0. */
  datatype TrimOptions = TrimOptions(enable: bool, trimStart: nat, trimEnd: nat)

  /** One side of the comparison as the user configured it: the loaded table,
      the key column, the extra columns to carry into the output (none is
      the empty sequence) and the cleaning options. */
  datatype DataSource = DataSource(data: Table, keyColumn: string, extras: seq<string>, trim: TrimOptions)

  function StartTrim(t: TrimOptions): nat {
    if t.enable then t.trimStart else 0
  }

  function EndTrim(t: TrimOptions): nat {
    if t.enable then t.trimEnd else 0
  }

  /** What a source needs for the comparison to complete: a key column that
      the table has, and extras that the normalized table has. */
  predicate Ready(s: DataSource) {
    && s.keyColumn != ""
    && s.keyColumn in s.data.columns
    && forall e :: e in s.extras ==> e in s.data.columns || e == KeyColumnName
  }

  /** The normalized keys of a source's rows, top to bottom. */
  function KeyStrings(s: DataSource): (ks: seq<string>)
    requires WellFormed(s.data) && s.keyColumn in s.data.columns
    ensures |ks| == |s.data.rows|
  {
    var c := ColumnIndex(s.data, s.keyColumn);
    seq(|s.data.rows|, i requires 0 <= i < |s.data.rows| =>
      NormalizeValue(s.data.rows[i][c], StartTrim(s.trim), EndTrim(s.trim)))
  }

  /** The copy of a source's table with the `normalized_key` column. */
  function Normalized(s: DataSource): Result<Table>
    requires WellFormed(s.data)
  {
    NormalizeColumn(s.data, s.keyColumn, KeyColumnName, StartTrim(s.trim), EndTrim(s.trim))
  }

  /** Each column name followed by the dataset's suffix, in order. */
  function Rename(cols: seq<string>, suffix: string): (r: seq<string>)
    ensures |r| == |cols|
    ensures forall i :: 0 <= i < |cols| ==> r[i] == cols[i] + suffix
  {
    seq(|cols|, i requires 0 <= i < |cols| => cols[i] + suffix)
  }

  /** The positions of `names` among `cols`, or the first name that is missing. */
  function Locate(cols: seq<string>, names: seq<string>): (r: Result<seq<nat>>)
    ensures r.Ok? <==> forall e :: e in names ==> e in cols
    ensures r.Ok? ==>
      && |r.value| == |names|
      && forall j :: 0 <= j < |names| ==> r.value[j] < |cols| && cols[r.value[j]] == names[j]
    ensures r.Err? ==> exists e :: e in names && e !in cols && r.error == ColumnNotFound(e)
  {
    if names == [] then Ok([])
    else if names[0] !in cols then Err(ColumnNotFound(names[0]))
    else match Locate(cols, names[1..])
      case Err(e) => Err(e)
      case Ok(rest) => Ok([FirstIndexOf(cols, names[0])] + rest)
  }

  /** A projection: the renamed extra columns and the keyed rows. */
  datatype Projection = Projection(columns: seq<string>, rows: seq<KeyedRow>)

  /** The normalized table cut down to its key column and the chosen extra
      columns, the extras renamed with `suffix`. Each row's key is the text
      of its `normalized_key` cell. */
  function Project(s: DataSource, norm: Table, suffix: string): (r: Result<Projection>)
    requires WellFormed(s.data) && Normalized(s) == Ok(norm)
    ensures r.Ok? <==> forall e :: e in s.extras ==> e in norm.columns
    ensures r.Err? ==> exists e :: e in s.extras && e !in norm.columns && r.error == ColumnNotFound(e)
    ensures r.Ok? ==>
      var p := r.value;
      && p.columns == Rename(s.extras, suffix)
      && |p.rows| == |norm.rows|
      && Keys(p.rows) == KeyStrings(s)
      && forall i :: 0 <= i < |norm.rows| ==>
           && Text(p.rows[i].key) == norm.rows[i][ColumnIndex(norm, KeyColumnName)]
           && |p.rows[i].extras| == |s.extras|
           && forall j :: 0 <= j < |s.extras| ==>
                p.rows[i].extras[j] == norm.rows[i][ColumnIndex(norm, s.extras[j])]
  {
    match Locate(norm.columns, s.extras)
    case Err(e) => Err(e)
    case Ok(ix) =>
      var keys := KeyStrings(s);
      assert forall j :: 0 <= j < |s.extras| ==> ix[j] == ColumnIndex(norm, s.extras[j]);
      var rows := seq(|norm.rows|, i requires 0 <= i < |norm.rows| =>
        KeyedRow(keys[i], seq(|ix|, j requires 0 <= j < |ix| => norm.rows[i][ix[j]])));
      assert Keys(rows) == keys;
      Ok(Projection(Rename(s.extras, suffix), rows))
  }

  function Projected(s: DataSource, suffix: string): Result<Projection>
    requires WellFormed(s.data)
  {
    match Normalized(s)
    case Err(e) => Err(e)
    case Ok(norm) => Project(s, norm, suffix)
  }

  /** The normalized table offers the source's columns and `normalized_key`. */
  lemma NormalizedColumns(s: DataSource, e: string)
    requires WellFormed(s.data) && s.keyColumn in s.data.columns
    ensures e in Normalized(s).value.columns <==> e in s.data.columns || e == KeyColumnName
  {
  }

  /** When a source's projection exists, and which column it reports otherwise. */
  lemma ProjectedOutcome(s: DataSource, suffix: string)
    requires WellFormed(s.data)
    ensures Projected(s, suffix).Ok? <==>
      s.keyColumn in s.data.columns && forall e :: e in s.extras ==> e in s.data.columns || e == KeyColumnName
    ensures Projected(s, suffix).Err? && s.keyColumn in s.data.columns ==>
      exists e :: e in s.extras && e !in s.data.columns && e != KeyColumnName &&
                  Projected(s, suffix).error == ColumnNotFound(e)
  {
    if s.keyColumn in s.data.columns {
      forall e ensures e in Normalized(s).value.columns <==> e in s.data.columns || e == KeyColumnName {
        NormalizedColumns(s, e);
      }
    }
  }

  datatype Statistics = Statistics(
    totalRecords: nat,
    totalUnique: nat,
    uniqueMatches: nat,
    uniqueNonMatches: nat,
    duplicateMatches: int,
    duplicateNonMatches: int)

  datatype Comparison = Comparison(
    /** `normalized_key`, the dataset-2 extras, then the dataset-1 extras:
        the columns of both the matches and the non-matches. */
    columns: seq<string>,
    matches: seq<KeyedRow>,
    nonMatches: seq<KeyedRow>,
    uniqueMatches: seq<KeyedRow>,
    uniqueNonMatches: seq<KeyedRow>,
    statistics: Statistics,
    matchLengths: LengthStats,
    nonMatchLengths: LengthStats)

  /** The `normalized_key` column of a result, as cells. */
  function KeyCells(rows: seq<KeyedRow>): (cells: seq<Cell>)
    ensures |cells| == |rows|
    ensures forall i :: 0 <= i < |rows| ==> cells[i] == Text(rows[i].key)
  {
    seq(|rows|, i requires 0 <= i < |rows| => Text(rows[i].key))
  }

  /** The part of the comparison after both projections exist: merge with
      dataset 2 on the left, non-matches of dataset 2, deduplication on the
      key, and the statistics (`total_*` from the raw dataset-2 table). */
  function Reconcile(p1: Projection, p2: Projection, raw2: Table, key2: string): (c: Comparison)
    requires WellFormed(raw2) && key2 in raw2.columns
    ensures c.columns == [KeyColumnName] + p2.columns + p1.columns
    ensures c.statistics.totalRecords == |raw2.rows|
  {
    var matches := InnerJoin(p2.rows, p1.rows);
    var nonMatches := NonMatches(p2.rows, p1.rows, |p1.columns|);
    var uniqueMatches := UniqueByKey(matches);
    var uniqueNonMatches := UniqueByKey(nonMatches);
    var stats := Statistics(
      |raw2.rows|,
      |UniqueRecords(raw2, key2).value.rows|,
      |uniqueMatches|,
      |uniqueNonMatches|,
      |matches| - |uniqueMatches|,
      |nonMatches| - |uniqueNonMatches|);
    Comparison(
      [KeyColumnName] + p2.columns + p1.columns,
      matches, nonMatches, uniqueMatches, uniqueNonMatches, stats,
      CalculateLengthStats(KeyCells(uniqueMatches)),
      CalculateLengthStats(KeyCells(uniqueNonMatches)))
  }

  /** The whole comparison. It runs only when both sources have a key column
      selected, and fails, with no partial result, on the first column that
      is missing, in the order the steps look columns up: key of dataset 1,
      key of dataset 2, extras of dataset 1, extras of dataset 2. */
  function Compare(s1: DataSource, s2: DataSource): (r: Result<Comparison>)
    requires WellFormed(s1.data) && WellFormed(s2.data)
    ensures r.Ok? <==> Ready(s1) && Ready(s2)
    ensures (s1.keyColumn == "" || s2.keyColumn == "") ==> r == Err(NoKeyColumn)
    ensures r.Err? && r.error.ColumnNotFound? ==>
      var name := r.error.name;
      || (name == s1.keyColumn && name !in s1.data.columns)
      || (name == s2.keyColumn && name !in s2.data.columns)
      || (name in s1.extras && name !in s1.data.columns && name != KeyColumnName)
      || (name in s2.extras && name !in s2.data.columns && name != KeyColumnName)
    ensures r.Ok? ==>
      r.value.columns == [KeyColumnName] + Rename(s2.extras, Suffix2) + Rename(s1.extras, Suffix1)
    ensures s1.keyColumn != "" && s2.keyColumn != "" && s1.keyColumn !in s1.data.columns ==>
      r == Err(ColumnNotFound(s1.keyColumn))
    ensures s1.keyColumn != "" && s2.keyColumn != "" && s1.keyColumn in s1.data.columns &&
            s2.keyColumn !in s2.data.columns ==>
      r == Err(ColumnNotFound(s2.keyColumn))
    ensures s1.keyColumn != "" && s2.keyColumn != "" && s1.keyColumn in s1.data.columns &&
            s2.keyColumn in s2.data.columns && !Ready(s1) ==>
      exists e :: e in s1.extras && e !in s1.data.columns && e != KeyColumnName && r == Err(ColumnNotFound(e))
    ensures Ready(s1) && s2.keyColumn != "" && s2.keyColumn in s2.data.columns && !Ready(s2) ==>
      exists e :: e in s2.extras && e !in s2.data.columns && e != KeyColumnName && r == Err(ColumnNotFound(e))
  {
    ProjectedOutcome(s1, Suffix1);
    ProjectedOutcome(s2, Suffix2);
    if s1.keyColumn == "" || s2.keyColumn == "" then Err(NoKeyColumn)
    else if Normalized(s1).Err? then Err(Normalized(s1).error)
    else if Normalized(s2).Err? then Err(Normalized(s2).error)
    else if Projected(s1, Suffix1).Err? then Err(Projected(s1, Suffix1).error)
    else if Projected(s2, Suffix2).Err? then Err(Projected(s2, Suffix2).error)
    else Ok(Reconcile(Projected(s1, Suffix1).value, Projected(s2, Suffix2).value, s2.data, s2.keyColumn))
  }

  // ---------------------------------------------------------------------------
  // Properties of the comparison

  /** The counts: no duplicate count is negative; the unique matches and
      unique non-matches split the distinct dataset-2 keys into the keys
      dataset 1 has and the keys it lacks; `total_unique` counts the distinct
      raw values of dataset 2's key column, not the normalized keys. */
  lemma ReconcileStatistics(p1: Projection, p2: Projection, raw2: Table, key2: string)
    requires WellFormed(raw2) && key2 in raw2.columns
    ensures var c := Reconcile(p1, p2, raw2, key2);
            var st := c.statistics;
            var k1 := KeySet(p1.rows);
            var k2 := KeySet(p2.rows);
            && st.duplicateMatches >= 0
            && st.duplicateNonMatches >= 0
            && KeySet(c.uniqueMatches) == k2 * k1
            && KeySet(c.uniqueNonMatches) == k2 - k1
            && KeySet(c.uniqueMatches) !! KeySet(c.uniqueNonMatches)
            && st.uniqueMatches == |k2 * k1|
            && st.uniqueNonMatches == |k2 - k1|
            && st.uniqueMatches + st.uniqueNonMatches == |k2|
            && st.duplicateMatches == MatchCount(p2.rows, p1.rows) - st.uniqueMatches
            && st.duplicateNonMatches == |AbsentPositions(p2.rows, p1.rows)| - st.uniqueNonMatches
            && st.totalUnique == |set k | k in ColumnKeys(raw2, ColumnIndex(raw2, key2))|
  {
    UniqueSplit(p2.rows, p1.rows, |p1.columns|);
    JoinSize(p2.rows, p1.rows);
    NonMatchCount(p2.rows, p1.rows, |p1.columns|);
  }

  /** The merge: its size is the sum, over the dataset-2 rows, of the number of
      dataset-1 rows with the same key; each merged row pairs a dataset-2 row
      with a dataset-1 row of equal key, and every such pair is merged. */
  lemma ReconcileMatches(p1: Projection, p2: Projection, raw2: Table, key2: string)
    requires WellFormed(raw2) && key2 in raw2.columns
    ensures var c := Reconcile(p1, p2, raw2, key2);
            && |c.matches| == MatchCount(p2.rows, p1.rows)
            && (forall m :: m in c.matches <==>
                  exists i, j :: 0 <= i < |p2.rows| && 0 <= j < |p1.rows| &&
                                 p2.rows[i].key == p1.rows[j].key && m == Combine(p2.rows[i], p1.rows[j]))
  {
    JoinSize(p2.rows, p1.rows);
    JoinRows(p2.rows, p1.rows);
  }

  /** The unique match kept for a key pairs the first dataset-2 row and the
      first dataset-1 row with that key. */
  lemma ReconcileUniqueMatches(p1: Projection, p2: Projection, raw2: Table, key2: string)
    requires WellFormed(raw2) && key2 in raw2.columns
    ensures var um := Reconcile(p1, p2, raw2, key2).uniqueMatches;
            forall j :: 0 <= j < |um| ==>
              var k := um[j].key;
              && k in Keys(p2.rows) && k in Keys(p1.rows)
              && um[j] == Combine(p2.rows[FirstIndexOf(Keys(p2.rows), k)],
                                  p1.rows[FirstIndexOf(Keys(p1.rows), k)])
  {
    var matches := InnerJoin(p2.rows, p1.rows);
    var um := Reconcile(p1, p2, raw2, key2).uniqueMatches;
    assert um == UniqueByKey(matches);
    UniqueByKeySpec(matches);
    JoinKeys(p2.rows, p1.rows);
    forall j | 0 <= j < |um|
      ensures var k := um[j].key;
              && k in Keys(p2.rows) && k in Keys(p1.rows)
              && um[j] == Combine(p2.rows[FirstIndexOf(Keys(p2.rows), k)],
                                  p1.rows[FirstIndexOf(Keys(p1.rows), k)])
    {
      var k := um[j].key;
      assert k in KeySet(um) by {
        assert Keys(um)[j] == k;
      }
      JoinFirstRow(p2.rows, p1.rows, k);
    }
  }

  /** The non-matches are the dataset-2 rows whose key dataset 1 lacks, in
      their original order, each followed by one null per dataset-1 extra. */
  lemma ReconcileNonMatches(p1: Projection, p2: Projection, raw2: Table, key2: string)
    requires WellFormed(raw2) && key2 in raw2.columns
    ensures var nm := Reconcile(p1, p2, raw2, key2).nonMatches;
            exists idx ::
              && StrictlyIncreasing(idx) && |idx| == |nm|
              && (forall j :: 0 <= j < |idx| ==>
                    && idx[j] < |p2.rows|
                    && nm[j].key == p2.rows[idx[j]].key
                    && nm[j].extras == p2.rows[idx[j]].extras + Nulls(|p1.columns|))
              && (forall i :: 0 <= i < |p2.rows| ==> (i in idx <==> p2.rows[i].key !in KeySet(p1.rows)))
  {
    NonMatchesExact(p2.rows, p1.rows, |p1.columns|);
  }

  /** The comparison's counts in terms of the sources: the unique matches
      and unique non-matches together number the distinct normalized keys of
      dataset 2, and the unique matches number the keys both sources share. */
  lemma CompareStatistics(s1: DataSource, s2: DataSource)
    requires WellFormed(s1.data) && WellFormed(s2.data)
    requires Compare(s1, s2).Ok?
    ensures var st := Compare(s1, s2).value.statistics;
            var k1 := set k | k in KeyStrings(s1);
            var k2 := set k | k in KeyStrings(s2);
            && st.totalRecords == |s2.data.rows|
            && st.uniqueMatches == |k2 * k1|
            && st.uniqueMatches + st.uniqueNonMatches == |k2|
            && st.duplicateMatches >= 0
            && st.duplicateNonMatches >= 0
            && st.duplicateNonMatches ==
                 |set i: nat | i < |KeyStrings(s2)| && KeyStrings(s2)[i] !in k1| - |k2 - k1|
  {
    var p1 := Projected(s1, Suffix1).value;
    var p2 := Projected(s2, Suffix2).value;
    ReconcileStatistics(p1, p2, s2.data, s2.keyColumn);
    ReconcileKeyCounts(p1, p2, s2.data, s2.keyColumn, KeyStrings(s1), KeyStrings(s2));
  }

  /** The statistics in terms of the two sequences of normalized keys. */
  lemma ReconcileKeyCounts(p1: Projection, p2: Projection, raw2: Table, key2: string,
                           ks1: seq<string>, ks2: seq<string>)
    requires WellFormed(raw2) && key2 in raw2.columns
    requires Keys(p1.rows) == ks1 && Keys(p2.rows) == ks2
    ensures var st := Reconcile(p1, p2, raw2, key2).statistics;
            var k1 := set k | k in ks1;
            var k2 := set k | k in ks2;
            && st.uniqueMatches == |k2 * k1|
            && st.uniqueMatches + st.uniqueNonMatches == |k2|
            && st.duplicateNonMatches == |set i: nat | i < |ks2| && ks2[i] !in k1| - |k2 - k1|
  {
    ReconcileStatistics(p1, p2, raw2, key2);
    AbsentPositionsOfKeys(p2.rows, p1.rows, ks2);
  }

  /** `ls` summarizes the lengths of `keys`: all zero when there is no key;
      otherwise its minimum and maximum are lengths of actual keys, every
      key's length lies between them, and so does the mean. */
  predicate SummarizesLengths(keys: set<string>, ls: LengthStats) {
    && (keys == {} ==> ls == LengthStats(0, 0, 0.0))
    && (keys != {} ==>
          && (exists k :: k in keys && |k| == ls.min)
          && (exists k :: k in keys && |k| == ls.max)
          && (forall k :: k in keys ==> ls.min <= |k| <= ls.max)
          && ls.min as real <= ls.mean <= ls.max as real)
  }

  /** `ls` summarizes the key lengths of `rows`, row by row. */
  predicate SummarizesRows(rows: seq<KeyedRow>, ls: LengthStats) {
    && (rows == [] ==> ls == LengthStats(0, 0, 0.0))
    && (rows != [] ==>
          && (exists i :: 0 <= i < |rows| && |rows[i].key| == ls.min)
          && (exists i :: 0 <= i < |rows| && |rows[i].key| == ls.max)
          && (forall i :: 0 <= i < |rows| ==> ls.min <= |rows[i].key| <= ls.max)
          && ls.min as real <= ls.mean <= ls.max as real)
  }

  /** The length statistics of a result's key column, row by row. */
  lemma KeyCellsStats(rows: seq<KeyedRow>)
    ensures SummarizesRows(rows, CalculateLengthStats(KeyCells(rows)))
  {
    KeyCellsBounds(rows);
    if rows != [] {
      KeyCellsExtremes(rows);
      KeyCellsMean(rows);
    }
  }

  lemma KeyCellsBounds(rows: seq<KeyedRow>)
    ensures var ls := CalculateLengthStats(KeyCells(rows));
            forall i :: 0 <= i < |rows| ==> ls.min <= |rows[i].key| <= ls.max
  {
    var cells := KeyCells(rows);
    forall i | 0 <= i < |rows|
      ensures CalculateLengthStats(cells).min <= |rows[i].key| <= CalculateLengthStats(cells).max
    {
      LengthWithinBounds(cells, i);
      assert Str(cells[i]) == rows[i].key;
    }
  }

  lemma KeyCellsExtremes(rows: seq<KeyedRow>)
    requires rows != []
    ensures var ls := CalculateLengthStats(KeyCells(rows));
            && (exists i :: 0 <= i < |rows| && |rows[i].key| == ls.min)
            && (exists i :: 0 <= i < |rows| && |rows[i].key| == ls.max)
  {
    var cells := KeyCells(rows);
    var ls := CalculateLengthStats(cells);
    assert !cells[0].Null?;
    var lo :| 0 <= lo < |cells| && !cells[lo].Null? && |Str(cells[lo])| == ls.min;
    assert cells[lo] == Text(rows[lo].key);
    var hi :| 0 <= hi < |cells| && !cells[hi].Null? && |Str(cells[hi])| == ls.max;
    assert cells[hi] == Text(rows[hi].key);
  }

  lemma KeyCellsMean(rows: seq<KeyedRow>)
    requires rows != []
    ensures var ls := CalculateLengthStats(KeyCells(rows));
            ls.min as real <= ls.mean <= ls.max as real
  {
    assert !KeyCells(rows)[0].Null?;
  }

  /** A row-by-row summary of key lengths is a summary of the key set. */
  lemma RowsToKeySet(rows: seq<KeyedRow>, ls: LengthStats)
    requires SummarizesRows(rows, ls)
    ensures SummarizesLengths(KeySet(rows), ls)
  {
    if rows != [] {
      assert Keys(rows)[0] in KeySet(rows);
      var lo :| 0 <= lo < |rows| && |rows[lo].key| == ls.min;
      assert Keys(rows)[lo] in KeySet(rows);
      var hi :| 0 <= hi < |rows| && |rows[hi].key| == ls.max;
      assert Keys(rows)[hi] in KeySet(rows);
      forall k | k in KeySet(rows) ensures ls.min <= |k| <= ls.max {
        var j :| 0 <= j < |rows| && Keys(rows)[j] == k;
      }
    }
  }

  /** The key-length statistics of the result: those of the unique matches
      describe the keys both datasets share, those of the unique non-matches
      the dataset-2 keys that dataset 1 lacks. */
  lemma ReconcileLengths(p1: Projection, p2: Projection, raw2: Table, key2: string)
    requires WellFormed(raw2) && key2 in raw2.columns
    ensures var c := Reconcile(p1, p2, raw2, key2);
            var k1 := KeySet(p1.rows);
            var k2 := KeySet(p2.rows);
            && SummarizesLengths(k2 * k1, c.matchLengths)
            && SummarizesLengths(k2 - k1, c.nonMatchLengths)
  {
    var c := Reconcile(p1, p2, raw2, key2);
    ReconcileStatistics(p1, p2, raw2, key2);
    KeyCellsStats(c.uniqueMatches);
    RowsToKeySet(c.uniqueMatches, c.matchLengths);
    KeyCellsStats(c.uniqueNonMatches);
    RowsToKeySet(c.uniqueNonMatches, c.nonMatchLengths);
  }

  /** When neither projection repeats a key there is nothing to deduplicate:
      both duplicate counts are zero. */
  lemma ReconcileWithoutDuplicates(p1: Projection, p2: Projection, raw2: Table, key2: string)
    requires WellFormed(raw2) && key2 in raw2.columns
    requires Distinct(Keys(p1.rows)) && Distinct(Keys(p2.rows))
    ensures Reconcile(p1, p2, raw2, key2).statistics.duplicateMatches == 0
    ensures Reconcile(p1, p2, raw2, key2).statistics.duplicateNonMatches == 0
  {
    JoinDistinct(p2.rows, p1.rows);
    UniqueByKeyOfDistinct(InnerJoin(p2.rows, p1.rows));
    NonMatchesDistinct(p2.rows, p1.rows, |p1.columns|);
    UniqueByKeyOfDistinct(NonMatches(p2.rows, p1.rows, |p1.columns|));
  }

  /** The result is rectangular: when each projection's rows carry one cell
      per projected extra column, every row of the matches, the non-matches
      and their deduplicated forms carries one cell per output column after
      `normalized_key`. */
  lemma ReconcileShape(p1: Projection, p2: Projection, raw2: Table, key2: string)
    requires WellFormed(raw2) && key2 in raw2.columns
    requires ExtrasWidth(p1.rows, |p1.columns|) && ExtrasWidth(p2.rows, |p2.columns|)
    ensures var c := Reconcile(p1, p2, raw2, key2);
            var w := |c.columns| - 1;
            && ExtrasWidth(c.matches, w)
            && ExtrasWidth(c.nonMatches, w)
            && ExtrasWidth(c.uniqueMatches, w)
            && ExtrasWidth(c.uniqueNonMatches, w)
  {
    ResultWidths(p2.rows, p1.rows, |p2.columns|, |p1.columns|);
  }

  /** Every row of a completed comparison has one cell per output column. */
  lemma CompareShape(s1: DataSource, s2: DataSource)
    requires WellFormed(s1.data) && WellFormed(s2.data)
    requires Ready(s1) && Ready(s2)
    ensures var c := Compare(s1, s2).value;
            var w := |c.columns| - 1;
            && ExtrasWidth(c.matches, w)
            && ExtrasWidth(c.nonMatches, w)
            && ExtrasWidth(c.uniqueMatches, w)
            && ExtrasWidth(c.uniqueNonMatches, w)
  {
    ProjectedOutcome(s1, Suffix1);
    ProjectedOutcome(s2, Suffix2);
    var p1 := Projected(s1, Suffix1).value;
    var p2 := Projected(s2, Suffix2).value;
    assert ExtrasWidth(p1.rows, |p1.columns|);
    assert ExtrasWidth(p2.rows, |p2.columns|);
    ReconcileShape(p1, p2, s2.data, s2.keyColumn);
  }

  /** Appending the same suffix keeps different names different. */
  lemma SuffixKeepsDifference(a: string, b: string, suffix: string)
    requires a != b
    ensures a + suffix != b + suffix
  {
    if |a| == |b| {
      var k :| 0 <= k < |a| && a[k] != b[k];
      assert (a + suffix)[k] == a[k] && (b + suffix)[k] == b[k];
    }
  }

  /** Renaming with a suffix keeps distinct columns distinct. */
  lemma RenameDistinct(cols: seq<string>, suffix: string)
    requires Distinct(cols)
    ensures Distinct(Rename(cols, suffix))
  {
    var r := Rename(cols, suffix);
    forall i, j | 0 <= i < j < |r|
      ensures r[i] != r[j]
    {
      SuffixKeepsDifference(cols[i], cols[j], suffix);
    }
  }

  /** The last character of a name that ends with `suffix`. */
  lemma LastOfSuffixed(a: string, suffix: string)
    requires suffix != []
    ensures (a + suffix)[|a + suffix| - 1] == suffix[|suffix| - 1]
  {
  }

  /** The suffixes make the output columns unambiguous: with no extra column
      chosen twice on either side, `normalized_key` and the renamed extras of
      both datasets are pairwise distinct, even when both datasets chose
      columns of the same name. */
  lemma OutputColumnsDistinct(e1: seq<string>, e2: seq<string>)
    requires Distinct(e1) && Distinct(e2)
    ensures Distinct([KeyColumnName] + Rename(e2, Suffix2) + Rename(e1, Suffix1))
  {
    var r2 := Rename(e2, Suffix2);
    var r1 := Rename(e1, Suffix1);
    var cols := [KeyColumnName] + r2 + r1;
    RenameDistinct(e2, Suffix2);
    RenameDistinct(e1, Suffix1);
    forall k | 0 <= k < |r2|
      ensures |r2[k]| >= 1 && r2[k][|r2[k]| - 1] == '2'
    {
      LastOfSuffixed(e2[k], Suffix2);
    }
    forall k | 0 <= k < |r1|
      ensures |r1[k]| >= 1 && r1[k][|r1[k]| - 1] == '1'
    {
      LastOfSuffixed(e1[k], Suffix1);
    }
    assert KeyColumnName[|KeyColumnName| - 1] == 'y';
    forall i, j | 0 <= i < j < |cols|
      ensures cols[i] != cols[j]
    {
      if j <= |r2| {
        assert cols[j] == r2[j - 1];
        if i > 0 {
          assert cols[i] == r2[i - 1];
        }
      } else if i > |r2| {
        assert cols[i] == r1[i - 1 - |r2|] && cols[j] == r1[j - 1 - |r2|];
      } else {
        assert cols[j] == r1[j - 1 - |r2|];
        if i > 0 {
          assert cols[i] == r2[i - 1];
        }
      }
    }
  }

  /** A completed comparison never produces two columns with the same label. */
  lemma CompareColumnsDistinct(s1: DataSource, s2: DataSource)
    requires WellFormed(s1.data) && WellFormed(s2.data)
    requires Ready(s1) && Ready(s2)
    requires Distinct(s1.extras) && Distinct(s2.extras)
    ensures Distinct(Compare(s1, s2).value.columns)
  {
    OutputColumnsDistinct(s1.extras, s2.extras);
  }

  /** A source whose table has one key column "k", with no extras and no
      trimming. */
  function KeyOnlySource(rows: seq<Row>): (s: DataSource)
    requires forall i :: 0 <= i < |rows| ==> |rows[i]| == 1
    ensures WellFormed(s.data) && Ready(s)
  {
    DataSource(Table(["k"], rows), "k", [], TrimOptions(false, 0, 0))
  }

  lemma KeyOnlyKeys(rows: seq<Row>)
    requires forall i :: 0 <= i < |rows| ==> |rows[i]| == 1
    ensures var ks := KeyStrings(KeyOnlySource(rows));
            forall i :: 0 <= i < |rows| ==> ks[i] == NormalizeValue(rows[i][0], 0, 0)
  {
    var s := KeyOnlySource(rows);
    assert ColumnIndex(s.data, "k") == 0;
  }

  lemma TextKeys(a: string, b: string, c: string)
    requires AllDigits(a) && AllDigits(b) && AllDigits(c)
    ensures KeyStrings(KeyOnlySource([[Text(a)], [Text(b)], [Text(c)]])) == [a, b, c]
    ensures KeyStrings(KeyOnlySource([[Text(a)], [Text(b)]])) == [a, b]
  {
    KeepDigitsOfDigits(a);
    KeepDigitsOfDigits(b);
    KeepDigitsOfDigits(c);
    KeyOnlyKeys([[Text(a)], [Text(b)], [Text(c)]]);
    KeyOnlyKeys([[Text(a)], [Text(b)]]);
  }

  lemma SetOfThree<T>(a: T, b: T, c: T)
    ensures (set k | k in [a, b, c]) == {a, b, c}
  {
  }

  lemma SetOfTwo<T>(a: T, b: T)
    ensures (set k | k in [a, b]) == {a, b}
  {
  }

  lemma DisjointThreeTwo<T>(x: T, y: T, z: T, a: T, b: T)
    requires x != a && x != b && y != a && y != b && z != a && z != b
    ensures {x, y, z} * {a, b} == {}
  {
  }

  lemma CardThree<T>(a: T, b: T, c: T)
    requires a != b && a != c && b != c
    ensures |{a, b, c}| == 3
  {
  }

  /** Text keys are compared as written: "001" and "002" share no key with
      "1", "2" and "3", so all three dataset-2 keys are unique non-matches. */
  lemma TextKeysScenario()
    ensures var s1 := KeyOnlySource([[Text("001")], [Text("002")]]);
            var s2 := KeyOnlySource([[Text("1")], [Text("2")], [Text("3")]]);
            && Compare(s1, s2).Ok?
            && Compare(s1, s2).value.statistics.uniqueMatches == 0
            && Compare(s1, s2).value.statistics.uniqueNonMatches == 3
  {
    var s1 := KeyOnlySource([[Text("001")], [Text("002")]]);
    var s2 := KeyOnlySource([[Text("1")], [Text("2")], [Text("3")]]);
    TextKeys("001", "002", "");
    TextKeys("1", "2", "3");
    SetOfTwo("001", "002");
    SetOfThree("1", "2", "3");
    DisjointThreeTwo("1", "2", "3", "001", "002");
    CardThree("1", "2", "3");
    CompareStatistics(s1, s2);
  }

  lemma SharedTwoOfThree<T>(a: T, b: T, c: T)
    requires a != b && a != c && b != c
    ensures {a, b, c} * {a, b} == {a, b}
    ensures |{a, b}| == 2 && |{a, b, c}| == 3
    ensures Distinct([a, b]) && Distinct([a, b, c])
  {
  }

  lemma FloatKeys()
    ensures KeyStrings(KeyOnlySource([[IntegralFloat(1)], [IntegralFloat(2)]])) == ["1", "2"]
  {
    KeyOnlyKeys([[IntegralFloat(1)], [IntegralFloat(2)]]);
    assert NatToString(1) == "1" && NatToString(2) == "2";
  }

  /** Integral floats 1.0 and 2.0 normalize to "1" and "2" and match the text
      keys "1" and "2"; "3" is the one unique non-match, and no key repeats. */
  lemma FloatKeysScenario()
    ensures var s1 := KeyOnlySource([[IntegralFloat(1)], [IntegralFloat(2)]]);
            var s2 := KeyOnlySource([[Text("1")], [Text("2")], [Text("3")]]);
            && Compare(s1, s2).Ok?
            && Compare(s1, s2).value.statistics.uniqueMatches == 2
            && Compare(s1, s2).value.statistics.uniqueNonMatches == 1
            && Compare(s1, s2).value.statistics.duplicateMatches == 0
            && Compare(s1, s2).value.statistics.duplicateNonMatches == 0
  {
    var s1 := KeyOnlySource([[IntegralFloat(1)], [IntegralFloat(2)]]);
    var s2 := KeyOnlySource([[Text("1")], [Text("2")], [Text("3")]]);
    FloatKeys();
    TextKeys("1", "2", "3");
    SetOfTwo("1", "2");
    SetOfThree("1", "2", "3");
    SharedTwoOfThree("1", "2", "3");
    CompareStatistics(s1, s2);
    var p1 := Projected(s1, Suffix1).value;
    var p2 := Projected(s2, Suffix2).value;
    ReconcileWithoutDuplicates(p1, p2, s2.data, s2.keyColumn);
  }
}

=== FILE: normalizer.dfy ===
/** Turning a cell into a matching key: `normalize_value` and `normalize_column`
    of streamlit_app.py. */
module Normalizer {
  import opened Cells
  import opened Seqs
  import opened Tables

  function Max0(n: int): nat {
    if n > 0 then n else 0
  }

  /** Drops `trimStart` characters from the front and then `trimEnd` from the
      back; a count that is not positive drops nothing, and a count that reaches
      past the end leaves the empty string. */
  function Trim(s: string, trimStart: int, trimEnd: int): (r: string)
    ensures var lo := if Max0(trimStart) < |s| then Max0(trimStart) else |s|;
            && |r| == Max0(|s| - lo - Max0(trimEnd))
            && lo + |r| <= |s|
            && r == s[lo .. lo + |r|]
  {
    var a := if trimStart > 0 then (if trimStart < |s| then s[trimStart..] else "") else s;
    if trimEnd > 0 then (if trimEnd < |a| then a[..|a| - trimEnd] else "") else a
  }

  /** The digit characters of `s`, in order. */
  function KeepDigits(s: string): (r: string)
    ensures AllDigits(r)
    ensures |r| <= |s|
  {
    if s == [] then []
    else (if IsDigit(s[0]) then [s[0]] else []) + KeepDigits(s[1..])
  }

  /** Filtering digits distributes over concatenation; with the one-character
      case of the definition this determines `KeepDigits` completely. */
  lemma {:induction false} KeepDigitsAppend(a: string, b: string)
    ensures KeepDigits(a + b) == KeepDigits(a) + KeepDigits(b)
  {
    if a == [] {
      assert a + b == b;
    } else {
      assert (a + b)[1..] == a[1..] + b;
      KeepDigitsAppend(a[1..], b);
    }
  }

  /** A string of digits passes through unchanged. */
  lemma {:induction false} KeepDigitsOfDigits(s: string)
    requires AllDigits(s)
    ensures KeepDigits(s) == s
  {
    if s != [] {
      KeepDigitsOfDigits(s[1..]);
    }
  }

  /** Filtering twice is filtering once. */
  lemma KeepDigitsIdempotent(s: string)
    ensures KeepDigits(KeepDigits(s)) == KeepDigits(s)
  {
    KeepDigitsOfDigits(KeepDigits(s));
  }

  /** Every digit of `s` survives the filter, and nothing else does. */
  lemma {:induction false} KeepDigitsContents(s: string, c: char)
    ensures c in KeepDigits(s) <==> (c in s && IsDigit(c))
  {
    if s != [] {
      KeepDigitsContents(s[1..], c);
      assert s == [s[0]] + s[1..];
    }
  }

  /** `normalize_value` of a cell and two trim counts. A null cell gives the
      empty key. Text and integer cells are rendered, trimmed and reduced to
      their digits. For an integral float the trimmed and filtered text is
      discarded and replaced by `str(int(value))`, so neither the trims nor
      the digit filter affect the result. */
  function NormalizeValue(c: Cell, trimStart: int, trimEnd: int): (r: string)
    ensures c.Null? ==> r == ""
    ensures !c.IntegralFloat? ==> AllDigits(r)
    ensures (c.Text? || c.Int?) ==> |r| <= Max0(|Str(c)| - Max0(trimStart) - Max0(trimEnd))
    ensures c.IntegralFloat? ==> IsSignedDecimal(r) && ParseInt(r) == c.f
  {
    match c
    case Null => ""
    case Text(s) => KeepDigits(Trim(s, trimStart, trimEnd))
    case Int(n) => KeepDigits(Trim(IntToString(n), trimStart, trimEnd))
    case IntegralFloat(f) =>
      ParseIntToString(f);
      IntToString(f)
  }

  /** For a text or integer cell the key is the digits of one contiguous slice
      of its text: from `trim_start` up to `trim_end` characters before the end. */
  lemma NormalizeIsDigitsOfSlice(c: Cell, trimStart: int, trimEnd: int)
    requires c.Text? || c.Int?
    ensures var s := Str(c);
            var lo := if Max0(trimStart) < |s| then Max0(trimStart) else |s|;
            var hi := if lo + Max0(trimEnd) < |s| then |s| - Max0(trimEnd) else lo;
            NormalizeValue(c, trimStart, trimEnd) == KeepDigits(s[lo..hi])
  {
    var s := Str(c);
    var lo := if Max0(trimStart) < |s| then Max0(trimStart) else |s|;
    var hi := if lo + Max0(trimEnd) < |s| then |s| - Max0(trimEnd) else lo;
    assert Trim(s, trimStart, trimEnd) == s[lo..hi];
  }

  /** Trimming at least the whole text away leaves the empty key, from either end. */
  lemma TrimPastEndIsEmpty(c: Cell, trimStart: int, trimEnd: int)
    requires c.Text? || c.Int?
    requires trimStart >= |Str(c)| || trimEnd >= |Str(c)| - Max0(trimStart)
    ensures NormalizeValue(c, trimStart, trimEnd) == ""
  {
  }

  /** An integral float ignores the trim counts altogether. */
  lemma FloatIgnoresTrim(f: int, trimStart: int, trimEnd: int)
    ensures NormalizeValue(IntegralFloat(f), trimStart, trimEnd) == NormalizeValue(IntegralFloat(f), 0, 0)
    ensures NormalizeValue(IntegralFloat(f), trimStart, trimEnd) == IntToString(f)
  {
  }

  /** Without trimming, a non-negative integer and the equal integral float
      get the same key, the plain decimal form: 42 and 42.0 both give "42". */
  lemma FloatAgreesWithInt(n: nat)
    ensures NormalizeValue(IntegralFloat(n), 0, 0) == NormalizeValue(Int(n), 0, 0) == NatToString(n)
  {
    KeepDigitsOfDigits(NatToString(n));
  }

  /** A negative integral float keeps its '-' sign, so its key is not all digits
      and differs from the key of the equal integer, which loses the sign. */
  lemma NegativeFloatKeepsSign(n: int)
    requires n < 0
    ensures var k := NormalizeValue(IntegralFloat(n), 0, 0);
            |k| >= 1 && k[0] == '-' && !AllDigits(k)
    ensures NormalizeValue(Int(n), 0, 0) == NatToString(-n)
    ensures NormalizeValue(IntegralFloat(n), 0, 0) != NormalizeValue(Int(n), 0, 0)
  {
    var s := IntToString(n);
    assert s == "-" + NatToString(-n);
    assert s == [s[0]] + NatToString(-n);
    KeepDigitsAppend([s[0]], NatToString(-n));
    KeepDigitsOfDigits(NatToString(-n));
  }

  /** Worked example: "AB-12-34" trimmed by 3 at the front and 1 at the back
      is "12-3", whose digits are "123". */
  lemma TrimExample()
    ensures NormalizeValue(Text("AB-12-34"), 3, 1) == "123"
  {
    var t := Trim("AB-12-34", 3, 1);
    assert t == "12-3";
    assert KeepDigits(t) == "123" by {
      assert t == "12" + "-3";
      KeepDigitsAppend("12", "-3");
      KeepDigitsOfDigits("12");
      assert KeepDigits("-3") == [] + KeepDigits("3");
      KeepDigitsOfDigits("3");
    }
  }

  // ---------------------------------------------------------------------------
  // normalize_column

  /** The column `normalize_column` writes: the new name when one is given
      (a non-empty name), otherwise the source column itself. */
  function TargetColumn(column: string, newColumn: string): string {
    if newColumn != "" then newColumn else column
  }

  /** `normalize_column` of a table, a source column, a new column name and
      two trim counts, on a copy of the table: the target column is
      overwritten in place when the table has it and appended as the last
      column otherwise. An empty `newColumn` stands for an absent new name. */
  function NormalizeColumn(t: Table, column: string, newColumn: string, trimStart: int, trimEnd: int): (r: Result<Table>)
    requires WellFormed(t)
    ensures r.Ok? <==> column in t.columns
    ensures r.Err? ==> r.error == ColumnNotFound(column)
    ensures r.Ok? ==>
      var u := r.value;
      var target := TargetColumn(column, newColumn);
      var src := ColumnIndex(t, column);
      && WellFormed(u)
      && |u.rows| == |t.rows|
      && (target in t.columns ==> u.columns == t.columns)
      && (target !in t.columns ==> u.columns == t.columns + [target])
      && (forall i, j :: 0 <= i < |u.rows| && 0 <= j < |u.columns| ==>
            u.rows[i][j] == if u.columns[j] == target
                            then Text(NormalizeValue(t.rows[i][src], trimStart, trimEnd))
                            else t.rows[i][j])
  {
    if column !in t.columns then Err(ColumnNotFound(column))
    else
      var src := ColumnIndex(t, column);
      var target := TargetColumn(column, newColumn);
      var key := (i: nat) requires i < |t.rows| => Text(NormalizeValue(t.rows[i][src], trimStart, trimEnd));
      if target in t.columns then
        var k := ColumnIndex(t, target);
        assert forall j :: 0 <= j < |t.columns| && t.columns[j] == target ==> j == k;
        Ok(Table(t.columns, seq(|t.rows|, i requires 0 <= i < |t.rows| => t.rows[i][k := key(i)])))
      else
        var cols := t.columns + [target];
        assert Distinct(cols);
        Ok(Table(cols, seq(|t.rows|, i requires 0 <= i < |t.rows| => t.rows[i] + [key(i)])))
  }
}

=== FILE: seqs.dfy ===
/** Generic facts about sequences: distinctness, selection by position,
    boolean-mask filtering (the shape of a dataframe's `df[mask]`) and the
    first position of a value. */
module Seqs {

  /** No value occurs twice in `s`. */
  predicate Distinct<T(==)>(s: seq<T>) {
    forall i, j :: 0 <= i < j < |s| ==> s[i] != s[j]
  }

  predicate StrictlyIncreasing(idx: seq<nat>) {
    forall j, k :: 0 <= j < k < |idx| ==> idx[j] < idx[k]
  }

  /** `r` is `s` read at the strictly increasing positions `idx`:
      an order-preserving subsequence of `s`. */
  ghost predicate Embeds<T>(r: seq<T>, s: seq<T>, idx: seq<nat>) {
    && StrictlyIncreasing(idx)
    && |idx| == |r|
    && forall j :: 0 <= j < |idx| ==> idx[j] < |s| && r[j] == s[idx[j]]
  }

  /** The positions at which `mask` holds, in increasing order. */
  function TrueIndices(mask: seq<bool>): (idx: seq<nat>)
    ensures |idx| <= |mask|
    ensures StrictlyIncreasing(idx)
    ensures forall j :: 0 <= j < |idx| ==> idx[j] < |mask| && mask[idx[j]]
    ensures forall i :: 0 <= i < |mask| && mask[i] ==> i in idx
  {
    if |mask| == 0 then []
    else
      var n := |mask| - 1;
      var p := TrueIndices(mask[..n]);
      assert forall i :: 0 <= i < n ==> mask[..n][i] == mask[i];
      if mask[n] then p + [n] else p
  }

  /** `TrueIndices` grows by at most one position when the mask grows by one flag. */
  lemma TrueIndicesSnoc(mask: seq<bool>, b: bool)
    ensures TrueIndices(mask + [b]) == TrueIndices(mask) + (if b then [|mask|] else [])
  {
    assert (mask + [b])[..|mask|] == mask;
  }

  function Select<T>(s: seq<T>, idx: seq<nat>): (r: seq<T>)
    requires forall j :: 0 <= j < |idx| ==> idx[j] < |s|
    ensures |r| == |idx|
    ensures forall j :: 0 <= j < |idx| ==> r[j] == s[idx[j]]
  {
    seq(|idx|, j requires 0 <= j < |idx| => s[idx[j]])
  }

  /** Boolean-mask filtering: the elements of `s` whose flag is set, in order. */
  function Filter<T>(s: seq<T>, mask: seq<bool>): (r: seq<T>)
    requires |mask| == |s|
    ensures Embeds(r, s, TrueIndices(mask))
  {
    Select(s, TrueIndices(mask))
  }

  /** The position of the first occurrence of `x` in `s`. */
  function FirstIndexOf<T(==)>(s: seq<T>, x: T): (i: nat)
    requires x in s
    ensures i < |s| && s[i] == x && x !in s[..i]
  {
    if s[0] == x then 0
    else
      var j := FirstIndexOf(s[1..], x);
      assert s[..j + 1] == [s[0]] + s[1..][..j];
      j + 1
  }

  /** A position holding `x` with no earlier `x` is THE first position of `x`. */
  lemma FirstIndexOfUnique<T>(s: seq<T>, x: T, p: nat)
    requires p < |s| && s[p] == x && x !in s[..p]
    ensures FirstIndexOf(s, x) == p
  {
  }

  /** The first `x` of `a + b`, when `a` holds no `x`, is the first `x` of `b`
      shifted past `a`. */
  lemma FirstIndexOfAppend<T>(a: seq<T>, b: seq<T>, x: T)
    requires x !in a && x in b
    ensures FirstIndexOf(a + b, x) == |a| + FirstIndexOf(b, x)
  {
    var q := FirstIndexOf(b, x);
    assert (a + b)[..|a| + q] == a + b[..q];
    FirstIndexOfUnique(a + b, x, |a| + q);
  }

  /** Selecting from a sequence extended at the end. */
  lemma SelectSnoc<T>(s: seq<T>, x: T, idx: seq<nat>)
    requires forall j :: 0 <= j < |idx| ==> idx[j] < |s|
    ensures Select(s + [x], idx) == Select(s, idx)
    ensures Select(s + [x], idx + [|s|]) == Select(s, idx) + [x]
  {
  }

  /** A strictly increasing sequence of positions lists a set without
      repetition, so it is as long as the set is large. */
  lemma IncreasingCard(idx: seq<nat>, positions: set<nat>)
    requires StrictlyIncreasing(idx)
    requires forall x :: x in idx <==> x in positions
    ensures |positions| == |idx|
  {
    assert Distinct(idx);
    DistinctCard<nat>(idx);
    assert (set x: nat | x in idx) == positions;
  }

  /** There are as many true positions as the mask has flags set. */
  lemma TrueIndicesCard(mask: seq<bool>)
    ensures |TrueIndices(mask)| == |set i: nat | i < |mask| && mask[i]|
  {
    var idx := TrueIndices(mask);
    forall x ensures x in idx <==> x in set i: nat | i < |mask| && mask[i] {
      if x in idx {
        var j :| 0 <= j < |idx| && idx[j] == x;
      }
    }
    IncreasingCard(idx, set i: nat | i < |mask| && mask[i]);
  }

  /** A duplicate-free sequence has as many elements as its set of values. */
  lemma {:induction false} DistinctCard<T>(s: seq<T>)
    requires Distinct(s)
    ensures |set x | x in s| == |s|
  {
    if s != [] {
      var t := s[1..];
      assert Distinct(t) by {
        forall i, j | 0 <= i < j < |t| ensures t[i] != t[j] {
          assert t[i] == s[i + 1] && t[j] == s[j + 1];
        }
      }
      DistinctCard(t);
      assert (set x | x in s) == {s[0]} + (set x | x in t);
      assert s[0] !in (set x | x in t) by {
        assert forall k :: 0 <= k < |t| ==> t[k] == s[k + 1] != s[0];
      }
    }
  }
}

=== FILE: tables.dfy ===
/** Tables: named columns over rows of cells, and the error outcome of the
    operations that look a column up by name. */
module Tables {
  import opened Cells
  import opened Seqs

  type Row = seq<Cell>

  /** A dataframe: column labels and rows, row `i` holding one cell per column. */
  datatype Table = Table(columns: seq<string>, rows: seq<Row>)

  /** Every row has one cell per column and no column label is repeated,
      so that selecting a column by name yields a single column. */
  predicate WellFormed(t: Table) {
    && Distinct(t.columns)
    && forall i :: 0 <= i < |t.rows| ==> |t.rows[i]| == |t.columns|
  }

  datatype Error =
    /** A key or extra column is not a column of its table (pandas' KeyError). */
    | ColumnNotFound(name: string)
    /** One of the two sources has no key column selected; nothing is compared. */
    | NoKeyColumn

  datatype Result<+T> = Ok(value: T) | Err(error: Error)

  /** Position of the column labelled `name`. */
  function ColumnIndex(t: Table, name: string): (i: nat)
    requires name in t.columns
    ensures i < |t.columns| && t.columns[i] == name
  {
    FirstIndexOf(t.columns, name)
  }
}
